=== FILE: README.md ===
# Ops agent, event bus and portfolio rules — a Dafny model

This project models the logic core of a small fund-operations platform: a
Next.js web app and a FastAPI service. It covers eight parts.

- **LRU cache** (`LruCache`, `rest-api/app/services/cache.py`): an ordered
  store, least recently used first, with a positive capacity. `get` moves a
  hit to the most recent end. `set` refreshes or inserts a key. When a new key meets a full
  cache, it first evicts the oldest entry. `ttl` is ignored.
- **Cache keys** (`Hashing`, `rest-api/app/utils/hashing.py`): `key_for`
  joins a prefix and the string forms of its parts with a bar separator.
- **Event bus** (`Bus`, `web-app/src/lib/bus.ts`): one emitter channel.
  `onEvent` appends a listener, duplicates included. `offEvent` removes one
  registration. `emitEvent` calls every registration in order.
- **Ops agent** (`Agent`, `web-app/src/lib/agent.ts`): `runAgentOnce` runs up
  to three rounds. Each round asks the model, runs the first tool call the
  model asks for, and narrates on the bus. The run ends with one
  `agent_done` unless a step throws. The model's answers are a sequence, one
  per request; a request past its end fails. Argument parsing and the three
  HTTP tools are functions that may fail.
- **Trade simulator** (`Trade`, `web-app/src/app/portfolio/trade/page.tsx`):
  `handleTrade` updates one holding and moves and clamps four risk metrics.
  It then rejects the trade on the first breached limit, or approves it.
- **Stress test** (`Stress`, `web-app/src/app/portfolio/page.tsx`):
  `getStressTestResults` builds four scenario rows from a fund's base metrics,
  and `getScenarioColor` colours a row by its name.
- **Engineering event log** (`EventLog`, `web-app/src/app/engineering/page.tsx`):
  the page appends each streamed event to a window of the last 200 and shows
  the summary of the latest `agent_done`.
- **Prompt templates** (`Prompts`, `web-app/src/lib/prompts.ts`): the
  analyse and refine prompts, which embed the PDF text cut to 15000
  characters, a numbered list of earlier actions and the analyst's feedback.

Shared modules:

- `Wrappers`: `Option` and `Result`.
- `Json`: JSON values.
- `Js`: JavaScript's `slice` index rules.
- `Text`: `join`, `split`, decimal rendering and `includes`.

Every operation is a pure function over immutable datatypes. A cache built by
`New` is `Valid`: positive capacity, size within it, distinct keys. `Get`
and `Set` keep it `Valid`, so `Set` takes `Valid` as its precondition. This
is the class's own invariant, not a demand on callers.

In `agent.ts:83` the tool's
promise is awaited unguarded, so a failing `fetch` or `.json()` throws out of
`runAgentOnce`. The model therefore aborts the run right after the pre-call
`agent_action`, with no post-call action and no `agent_done`
(`Agent.ToolFailureAborts`). The same holds for a tool name that is not a key
of `tools`.

## Model

| member | source | states |
|---|---|---|
| `LruCache.New` | rest-api/app/services/cache.py:9-13 | Construction fails exactly when `max_items <= 0`; otherwise the cache is empty, valid and has that capacity. |
| `LruCache.DefaultCache` | rest-api/app/services/cache.py:36-37 | The module-level singleton is an empty cache with capacity 2000, and its construction succeeds. |
| `LruCache.Get` | rest-api/app/services/cache.py:15-21 | A miss returns `None` and leaves the cache unchanged. A hit returns a value stored under the key and moves that entry to the most recent end. Entries are only reordered, and the others keep their order. |
| `LruCache.GetKeepsMapping` | rest-api/app/services/cache.py:15-21 | `get` returns what an independent lookup of the store finds, keeps the cache valid, and leaves every key's value as it was. |
| `LruCache.Set` | rest-api/app/services/cache.py:23-31 | `set` keeps the cache valid and its capacity. The new pair becomes the most recent entry and no other entry carries the key. Refreshing an existing key removes its old entry, keeps the other entries in their order and keeps the size. A new key in a non-full cache is appended. A new key in a full cache evicts exactly the least recently used entry. |
| `LruCache.SetEntries` | rest-api/app/services/cache.py:24-31 | After `set(k, v)` the store holds exactly `(k, v)` plus the old entries of other keys, minus the oldest entry when `set` evicts. |
| `LruCache.SetThenGet` | rest-api/app/services/cache.py:24-31 | A `get` right after `set(k, v, ttl)` returns `v`, whatever `ttl` is. |
| `LruCache.SetKeepsOthers` | rest-api/app/services/cache.py:24-31 | `set` keeps the value of every other key it does not evict. |
| `LruCache.SetEvictsOldest` | rest-api/app/services/cache.py:28-31 | When a new key meets a full cache, the least recently used key is gone afterwards and the size stays at capacity. |
| `LruCache.SetIgnoresTtl` | rest-api/app/services/cache.py:23-24 | The `ttl` argument has no effect on the result of `set`. |
| `Hashing.KeyFor` | rest-api/app/utils/hashing.py:7-8 | A key starts with the prefix and one bar separator. With no parts it is exactly that. With parts it is the prefix and the parts joined by bars. |
| `Hashing.KeyForLength` | rest-api/app/utils/hashing.py:7-8 | With `k >= 1` parts, a key is as long as the prefix, the parts and `k` separators. |
| `Hashing.KeyForSplit` | rest-api/app/utils/hashing.py:7-8 | With at least one part, and when neither the prefix nor any part contains a bar, splitting the key on bars gives back the prefix followed by the parts. |
| `Hashing.KeyForNoPartsSplit` | rest-api/app/utils/hashing.py:7-8 | A key with no parts ends in a separator. When the prefix contains no bar, it splits into the prefix and an empty piece. |
| `Bus.OnEvent` | web-app/src/lib/bus.ts:18-20 | Registering appends the callback after all earlier registrations, duplicates included. Its count rises by one and no other callback's count changes. |
| `Bus.OffEvent` | web-app/src/lib/bus.ts:21-23 | Removing an unregistered callback changes nothing. Otherwise exactly its most recent registration is removed and the rest keep their order. |
| `Bus.EmitEvent` | web-app/src/lib/bus.ts:15-17 | Emitting delivers the unchanged event to each registration once, in registration order. |
| `Bus.EmitReachesEachRegistration` | web-app/src/lib/bus.ts:15-20 | A listener receives one emitted event as many times as it is registered. |
| `Bus.EmitWithoutListeners` | web-app/src/lib/bus.ts:15-17 | Emitting on a bus with no listeners delivers nothing. |
| `Bus.BroadcastOrder` | web-app/src/lib/bus.ts:15-20 | A listener registered once receives a series of published events exactly and in publish order. An unregistered listener receives none. |
| `Bus.DuplicateRegistration` | web-app/src/lib/bus.ts:18-23 | Registering a callback twice and removing it once leaves one extra registration, so the callback still receives every event. |
| `Agent.RunAgentOnce` | web-app/src/lib/agent.ts:21-91 | A run makes one to three model requests, each carrying the earlier tool results. Each tool result is the defined tool's answer to the first call of that round's answer. The events are one pre-call and one post-call action per completed round, then the ending. Three completed rounds return the limit summary. Otherwise the round after the last completed one stopped the run, and `Stopped` says why. |
| `Agent.Loop` | web-app/src/lib/agent.ts:27-42 | From any reachable round start, the rest of the run satisfies the whole-run contract and keeps the results already gathered. |
| `Agent.Respond` | web-app/src/lib/agent.ts:73-81 | An answer without a function call returns its content or `"No issues found."`. Arguments that do not parse throw before any event. Otherwise the named tool is called. |
| `Agent.CallTool` | web-app/src/lib/agent.ts:80-85 | An undefined or throwing tool aborts after the pre-call action. A tool that answers produces the pre-call and post-call actions, and the result is pushed before the next round. |
| `Agent.ActionPairsShape` | web-app/src/lib/agent.ts:80-85 | Completed rounds emit two actions each, in call order: action `2j` announces round `j`'s call without a result, and action `2j + 1` repeats its name and arguments with the result. None of them is an `agent_done`. |
| `Agent.ExactlyOneDone` | web-app/src/lib/agent.ts:73-90 | A run that returns emits exactly one `agent_done`, as its last event, carrying the returned summary. A run that throws emits none. |
| `Agent.ToolFailureAborts` | web-app/src/lib/agent.ts:80-85 | An undefined or throwing tool ends the trace with that call's pre-call action, with no result and no `agent_done`. |
| `Agent.RequestsCarryEarlierResults` | web-app/src/lib/agent.ts:28-42 | Request `j` holds the system prompt and the telemetry. It holds a `tool` message with the first `j` results exactly when `j > 0`. |
| `Agent.AnswerWithoutToolCall` | web-app/src/lib/agent.ts:73-77 | A first answer without a function call ends the run with one request, no tool results and a single `agent_done`. Its content is used even when it is the empty string, and `"No issues found."` only when it is missing. |
| `Agent.ToolCallLimit` | web-app/src/lib/agent.ts:27-90 | Three successful tool rounds end the run with `"Reached tool-call limit; see actions above."`, both as the returned value and in the last event. The third request carries the two earlier results. |
| `Agent.OnlyFirstCallMatters` | web-app/src/lib/agent.ts:73-74 | Two answer sequences that agree on every answer's content and first tool call give identical runs. |
| `Agent.RecentErrorsExample` | web-app/src/lib/agent.ts:21-91 | An example run: the model asks for `recent_errors`, the tool finds no errors, and the model then answers in text. The events are the pre-call action, the post-call action with the result, and `agent_done`. |
| `Trade.UpdateHolding` | web-app/src/app/portfolio/trade/page.tsx:64-69 | BUY adds the traded shares. SELL subtracts them but never goes below zero. The value is always shares times the unchanged price. |
| `Trade.UpdateMetrics` | web-app/src/app/portfolio/trade/page.tsx:73-79 | Every metric ends within its clamp. For a non-negative trade, volatility and tracking error do not fall and Sharpe and drawdown do not rise, up to the clamp. |
| `Trade.FirstBreach` | web-app/src/app/portfolio/trade/page.tsx:82-117 | No limit is reported exactly when none is breached. A reported limit is breached, and no breached limit comes earlier in checking order. |
| `Trade.HandleTrade` | web-app/src/app/portfolio/trade/page.tsx:51-126 | An unknown ticker is rejected and nothing changes. Otherwise the traded holding and the metrics are updated and committed, and every other holding is kept. The trade is approved exactly when no limit is breached, else rejected for the first breached limit. An approval names the side, count, ticker and fund. |
| `Trade.ReasonText` | web-app/src/app/portfolio/trade/page.tsx:55-125 | The message tells the reasons apart by its first characters. An unknown ticker's message embeds the ticker after `Ticker `. An approval starts with `You bought ` or `You sold ` by side and ends with the fund. Each breached limit has its own message. |
| `Trade.ReasonTextIdentifiesReason` | web-app/src/app/portfolio/trade/page.tsx:55-125 | Equal messages mean equal reasons, except that two approvals are only known to share their side. |
| `Trade.MetricsIgnoreSideAndTicker` | web-app/src/app/portfolio/trade/page.tsx:73-79 | The metric update and the verdict depend on the share count only, not on the side or the ticker. |
| `Trade.InitialApprovalThreshold` | web-app/src/app/portfolio/trade/page.tsx:43-90 | From the initial metrics, a trade of a held ticker is approved exactly when `3 * shares <= 1000`. Otherwise the tracking-error limit rejects it. |
| `Trade.NegativeBuyGoesShort` | web-app/src/app/portfolio/trade/page.tsx:64-67 | BUY has no floor: for every holding, buying a negative count below minus the position leaves a negative position, while selling `-n` shares stops at zero. |
| `Stress.StressTestResults` | web-app/src/app/portfolio/page.tsx:97-129 | The test gives four rows: the base case with the fund's metrics, then market drop, rate hike and combined stress, named after the two shock values. |
| `Stress.CombinedIsSumOfShocks` | web-app/src/app/portfolio/page.tsx:97-128 | In the table the stress test returns, each additive metric of the combined row moves from the base row by the sum of the market-drop and rate-hike rows' moves. Its price is the base price scaled by the product of the two multipliers. |
| `Stress.ShocksWorsenMetrics` | web-app/src/app/portfolio/page.tsx:97-128 | Non-negative shocks never lower volatility or tracking error and never raise daily or cumulative returns, compared with the base row. |
| `Stress.MultipliersInRange` | web-app/src/app/portfolio/page.tsx:287-310 | Within the slider ranges (market drop 5..50, rate hike 50..500), both price multipliers lie in (0, 1]. |
| `Stress.RowPricesBounded` | web-app/src/app/portfolio/page.tsx:107-123 | With multipliers in (0, 1] and a positive base price, every stressed price is positive and at most the base price. |
| `Stress.StressedPricesBounded` | web-app/src/app/portfolio/page.tsx:97-128 | Within the slider ranges, every stressed row's price is positive and at most the base price. |
| `Stress.ScenarioColor` | web-app/src/app/portfolio/page.tsx:81-85 | Green exactly when the name contains `Base`. Red exactly when it does not but contains `Combined`. Yellow otherwise. |
| `Stress.ShockRowsAreYellow` | web-app/src/app/portfolio/page.tsx:81-113 | The market-drop and rate-hike row names contain neither word, whatever the shock values, so they are yellow. |
| `Stress.RowColors` | web-app/src/app/portfolio/page.tsx:81-128 | The four stress rows are coloured green, yellow, yellow and red. |
| `EventLog.Receive` | web-app/src/app/engineering/page.tsx:38-42 | The new event becomes the last one and the window never exceeds 200. Below 200 nothing is dropped; at 200 exactly the oldest is dropped. Only an `agent_done` replaces the summary. |
| `EventLog.ReceiveStep` | web-app/src/app/engineering/page.tsx:40-41 | Receiving an event moves the reference window of the last 200 events, and the reference summary, along by that event. |
| `EventLog.ReplayWindow` | web-app/src/app/engineering/page.tsx:38-42 | From any window of at most 200 events, receiving a series leaves the last 200 of everything received, and the summary of the latest `agent_done` in the series or else the earlier one. |
| `EventLog.ReplayFromEmpty` | web-app/src/app/engineering/page.tsx:29-42 | From the empty page, the state after any series is exactly its last 200 events and the summary of its latest `agent_done`. |
| `EventLog.NoDoneKeepsSummary` | web-app/src/app/engineering/page.tsx:41 | A series without `agent_done` leaves the summary as it was. |
| `EventLog.ConnectedPageShowsRunSummary` | web-app/src/app/engineering/page.tsx:38-42 | A freshly connected page receives the greeting, then every event of one agent run. It then shows the run's summary if the run returned, and no summary if it threw. |
| `Prompts.Truncate` | web-app/src/lib/prompts.ts:6 | The PDF text is cut to at most 15000 characters. A shorter text is kept whole, and a longer one keeps its first 15000. |
| `Prompts.AnalyzeUser` | web-app/src/lib/prompts.ts:3-18 | The analyse prompt is its fixed head, the truncated PDF text and its fixed tail. The PDF text reads back from between head and tail. |
| `Prompts.AnalyzeEmbedsPdf` | web-app/src/lib/prompts.ts:3-18 | The analyse prompt is its fixed head, then the first `min(15000, len)` characters of the PDF, then its fixed tail. Each piece can be read back by position. |
| `Prompts.AnalyzeOnlySeesPrefix` | web-app/src/lib/prompts.ts:3-18 | Two PDFs that agree on their first 15000 characters give the same analyse prompt. |
| `Prompts.NumberedList` | web-app/src/lib/prompts.ts:33 | No actions give the empty string. Otherwise the list starts with the first action's numbered line and ends with the last action verbatim. Its length is that of the lines plus one line break between each pair. |
| `Prompts.EmptyList` | web-app/src/lib/prompts.ts:33 | No previous actions render as the empty string. |
| `Prompts.ReadLine` | web-app/src/lib/prompts.ts:33 | A list line reads back: its leading digits denote `i + 1`, then `". "`, then the action verbatim. |
| `Prompts.LineBreaks` | web-app/src/lib/prompts.ts:33 | A list line contains a line break exactly when its action does. |
| `Prompts.SplitList` | web-app/src/lib/prompts.ts:33 | When no action contains a line break, splitting a non-empty list on line breaks gives one numbered line per action, in order, each reading back to its action. |
| `Prompts.RefineUser` | web-app/src/lib/prompts.ts:22-45 | The refine prompt is exactly its fixed head, the truncated PDF text, the list block with its two headings, the feedback verbatim and its fixed tail. Each piece reads back by position, and the length is the sum of the pieces. |
| `Prompts.RefineEmbedsInputs` | web-app/src/lib/prompts.ts:22-45 | The refine prompt starts with its fixed head and the truncated PDF. It ends with the feedback verbatim, between double quotes, followed by the fixed tail, whatever the feedback contains. |
| `Prompts.RefineEmbedsList` | web-app/src/lib/prompts.ts:32-36 | The numbered list of previous actions sits in the refine prompt between the `PREVIOUS SUGGESTED ACTIONS:` and `ANALYST FEEDBACK:` headings. |

## Left out

- Numbers are mathematical: money, metrics and shocks are `real` and counts are `int`. IEEE-754 rounding, `NaN` and infinities are not modelled.
- Strings are sequences of characters. JavaScript's `slice` and `length` count UTF-16 code units, so text outside the Basic Multilingual Plane is truncated differently.
- JSON serialisation (`JSON.stringify` of the telemetry, the tool results and SSE frames) is not modelled. A request carries the structured values it would serialise.
- `JSON.parse` of tool arguments is an input function, apart from the empty string meaning `{}`. The tools' HTTP calls are an input function too. The model client is a sequence of answers, and a missing `choices[0]` is not modelled separately.
- A tool name that is an inherited property of a plain object (such as `toString`) is treated like any other undefined name.
- Node's `MaxListenersExceededWarning`, logged once more than 10 listeners are registered, is a logging side effect and is not modelled. Registration succeeds either way.
- Listener exceptions in `emitEvent` are not modelled. The stream route's `send` catches enqueue failures itself. Node's `EventEmitter` is not part of this model; `offEvent` follows its documented rule of removing the most recent matching registration.
- `Agent.Environment.tools` answers the same call the same way in every round of a run. The live `/health` and `/metrics` endpoints can answer differently between rounds; the proved properties each read one round's answer only.
- Concurrent agent runs interleaving on the shared bus are not modelled; one invocation is modelled at a time.
- The `agent_log` event that `api/agent/route.ts` emits before each run is not part of the trace, and neither is the HTTP route plumbing (SSE framing, pings, abort handling).
- `dataset_hash` (SHA-256) is a foreign call and is left out. `key_for` takes its parts after Python's `str()` conversion.
- `handleTrade` mutates the original holding through a shallow copy. The model updates functionally.
- The two funds' initial holdings (`initialPortfolios`) are page data. `Trade.HandleTrade` takes any portfolio.
- `calcCorrelation` and `formatCurrency` are floating-point and `Intl` numerics. React rendering, styling and navigation are UI.
- `Trade.ReasonText` takes the rendering of the share count as a parameter, because JavaScript's number-to-string conversion is not modelled.
- `LruCache.Get` returns `Some(v)` for a stored value, where Python's `get` returns the stored value itself. A stored `None` is therefore distinguishable in the model but not in the source.
- `LruCache.Len` (`__len__`, `cache.py:33-34`) is the number of entries and carries no separate contract.

=== FILE: agent.dfy ===
/**
  The bounded ops agent of `web-app/src/lib/agent.ts` (`runAgentOnce`): up
  to three rounds of asking the model, running the first tool call it asks
  for, and narrating on the bus, ended by exactly one `agent_done`, unless a
  step throws.

  The model, JSON parsing of tool arguments and the HTTP tools are inputs:
  the model is the sequence of messages it answers with, one per request (a
  request past the end fails), and parsing and the tools are functions that
  may fail (`None`).
 */
module Agent {
  import opened Wrappers
  import opened Json
  import opened Bus

  /** An entry of `message.tool_calls`. */
  datatype ToolCall = FunctionCall(name: string, arguments: string) | OtherCall

  /** `resp.choices[0].message`: its content (null or absent is `None`) and its tool calls. */
  datatype Message = Message(content: Option<string>, toolCalls: seq<ToolCall>)

  /** An entry of `toolResults`. */
  datatype ToolResult = ToolResult(name: string, args: Json, result: Json)

  /** A message sent to the model. */
  datatype ChatMessage =
    | System(content: string)
    | User(telemetry: Json)
    | ToolMessage(results: seq<ToolResult>)

  /** The messages of one model request (model, tool schema and `tool_choice` are fixed). */
  datatype Request = Request(messages: seq<ChatMessage>)

  /** The model's answers, the JSON parser and the tool functions one run sees. */
  datatype Environment = Environment(
    responses: seq<Message>,
    parse: string -> Option<Json>,
    tools: (string, Json) -> Option<Json>)

  /** Why a run throws instead of returning. */
  datatype Abort =
    | ModelRequestFailed
    | ArgumentsNotJson(arguments: string)
    | ToolUndefined(name: string, args: Json)
    | ToolThrew(name: string, args: Json)

  datatype Outcome = Returned(summary: string) | Threw(reason: Abort)

  /** What one invocation did: its model requests, its bus events, its tool results, its outcome. */
  datatype Run = Run(requests: seq<Request>, events: seq<Event>, toolResults: seq<ToolResult>, outcome: Outcome)

  const SystemPrompt: string :=
    "You are an SRE assistant. Think in short steps. Prefer at most 3 tool calls. Output a brief final summary."
  const MaxRounds: nat := 3
  const NoIssuesSummary: string := "No issues found."
  const LimitSummary: string := "Reached tool-call limit; see actions above."

  /** The keys of the `tools` object. */
  const ToolNames: set<string> := {"get_health", "metrics", "recent_errors"}

  /** `message.tool_calls?.[0]`. */
  function FirstCall(m: Message): Option<ToolCall> {
    if |m.toolCalls| == 0 then None else Some(m.toolCalls[0])
  }

  /** The run ends with this message: its first tool call is absent or not a function call. */
  predicate Final(m: Message) {
    FirstCall(m).None? || !FirstCall(m).value.FunctionCall?
  }

  /** `JSON.parse(arguments || "{}")`. */
  function ParseArgs(env: Environment, arguments: string): Option<Json> {
    if arguments == "" then Some(EmptyObject) else env.parse(arguments)
  }

  /** The messages of a request made after the tool results `done`. */
  function BuildRequest(trigger: Json, done: seq<ToolResult>): Request {
    Request([System(SystemPrompt), User(trigger)] + (if |done| > 0 then [ToolMessage(done)] else []))
  }

  /** The `agent_action` announcing a tool call. */
  function PreCall(name: string, args: Json): Event {
    AgentAction(Action(name, args, None, None))
  }

  /** The `agent_action` reporting a tool call's result. */
  function PostCall(t: ToolResult): Event {
    AgentAction(Action(t.name, t.args, Some(t.result), None))
  }

  /** The events of completed tool rounds: a pre-call and a post-call action each. */
  function ActionPairs(done: seq<ToolResult>): seq<Event>
  {
    if done == [] then []
    else
      var t := done[|done| - 1];
      ActionPairs(done[..|done| - 1]) + [PreCall(t.name, t.args), PostCall(t)]
  }

  /** Round `k` of the run asked for a tool and obtained `t` from it. */
  ghost predicate ToolRound(env: Environment, k: nat, t: ToolResult) {
    && k < |env.responses|
    && !Final(env.responses[k])
    && var call := FirstCall(env.responses[k]).value;
    && call.name == t.name
    && ParseArgs(env, call.arguments) == Some(t.args)
    && t.name in ToolNames
    && env.tools(t.name, t.args) == Some(t.result)
  }

  /** The state a run is in at the start of round `round`. */
  ghost predicate RoundStart(env: Environment, trigger: Json, round: nat, done: seq<ToolResult>,
                             events: seq<Event>, requests: seq<Request>) {
    && round <= MaxRounds
    && |done| == round
    && |requests| == round
    && (forall j :: 0 <= j < round ==> requests[j] == BuildRequest(trigger, done[..j]))
    && (forall k :: 0 <= k < round ==> ToolRound(env, k, done[k]))
    && events == ActionPairs(done)
  }

  /** The events a run emits after its last completed tool round. */
  function Ending(outcome: Outcome): seq<Event> {
    match outcome
    case Returned(summary) => [AgentDone(summary)]
    case Threw(ToolUndefined(name, args)) => [PreCall(name, args)]
    case Threw(ToolThrew(name, args)) => [PreCall(name, args)]
    case Threw(_) => []
  }

  /** The events a run emits, given its tool results and outcome. */
  function Trace(toolResults: seq<ToolResult>, outcome: Outcome): seq<Event> {
    ActionPairs(toolResults) + Ending(outcome)
  }

  /** Round `k` asked for tool `name` with arguments that parse to `args`. */
  ghost predicate CallIn(env: Environment, k: nat, name: string, args: Json) {
    && k < |env.responses|
    && !Final(env.responses[k])
    && FirstCall(env.responses[k]).value.name == name
    && ParseArgs(env, FirstCall(env.responses[k]).value.arguments) == Some(args)
  }

  /** Round `k` ended the run with `outcome`, and this is why. */
  ghost predicate Stopped(env: Environment, k: nat, outcome: Outcome) {
    match outcome
    case Returned(summary) =>
      k < |env.responses| && Final(env.responses[k])
      && summary == env.responses[k].content.GetOr(NoIssuesSummary)
    case Threw(ModelRequestFailed) => k >= |env.responses|
    case Threw(ArgumentsNotJson(arguments)) =>
      k < |env.responses| && !Final(env.responses[k])
      && FirstCall(env.responses[k]).value.arguments == arguments
      && ParseArgs(env, arguments).None?
    case Threw(ToolUndefined(name, args)) => CallIn(env, k, name, args) && name !in ToolNames
    case Threw(ToolThrew(name, args)) =>
      CallIn(env, k, name, args) && name in ToolNames && env.tools(name, args).None?
  }

  /** What a whole run satisfies, from whatever round it was continued. */
  ghost predicate RunSpec(env: Environment, trigger: Json, r: Run) {
    && 1 <= |r.requests| <= MaxRounds
    && |r.toolResults| <= MaxRounds
    && (forall j :: 0 <= j < |r.requests| ==>
          j <= |r.toolResults| && r.requests[j] == BuildRequest(trigger, r.toolResults[..j]))
    && (forall k :: 0 <= k < |r.toolResults| ==> ToolRound(env, k, r.toolResults[k]))
    && r.events == Trace(r.toolResults, r.outcome)
    && (|r.toolResults| == MaxRounds ==> r.outcome == Returned(LimitSummary) && |r.requests| == MaxRounds)
    && (|r.toolResults| < MaxRounds ==> |r.requests| == |r.toolResults| + 1)
    && (|r.toolResults| < MaxRounds ==> Stopped(env, |r.toolResults|, r.outcome))
  }

  /** The loop of `runAgentOnce`, from the start of round `round`: make the round's request. */
  function Loop(env: Environment, trigger: Json, round: nat, done: seq<ToolResult>,
                events: seq<Event>, requests: seq<Request>): (r: Run)
    requires RoundStart(env, trigger, round, done, events, requests)
    ensures RunSpec(env, trigger, r)
    ensures round <= |r.toolResults| && r.toolResults[..round] == done
    decreases MaxRounds - round, 2
  {
    if round == MaxRounds then
      LimitStop(env, trigger, done, events, requests);
      Run(requests, events + [AgentDone(LimitSummary)], done, Returned(LimitSummary))
    else if round >= |env.responses| then
      EarlyStop(env, trigger, round, done, events, requests, Threw(ModelRequestFailed));
      Run(requests + [BuildRequest(trigger, done)], events, done, Threw(ModelRequestFailed))
    else
      Respond(env, trigger, round, done, events, requests)
  }

  /** The rest of round `round`: act on the model's answer. */
  function Respond(env: Environment, trigger: Json, round: nat, done: seq<ToolResult>,
                   events: seq<Event>, requests: seq<Request>): (r: Run)
    requires RoundStart(env, trigger, round, done, events, requests)
    requires round < MaxRounds && round < |env.responses|
    ensures RunSpec(env, trigger, r)
    ensures round <= |r.toolResults| && r.toolResults[..round] == done
    decreases MaxRounds - round, 1
  {
    var requests' := requests + [BuildRequest(trigger, done)];
    var msg := env.responses[round];
    if Final(msg) then
      var final := msg.content.GetOr(NoIssuesSummary);
      EarlyStop(env, trigger, round, done, events, requests, Returned(final));
      Run(requests', events + [AgentDone(final)], done, Returned(final))
    else
      var name := FirstCall(msg).value.name;
      var arguments := FirstCall(msg).value.arguments;
      match ParseArgs(env, arguments)
      case None =>
        EarlyStop(env, trigger, round, done, events, requests, Threw(ArgumentsNotJson(arguments)));
        Run(requests', events, done, Threw(ArgumentsNotJson(arguments)))
      case Some(args) =>
        CallTool(env, trigger, round, done, events, requests, name, args)
  }

  /** The end of round `round`: announce the call, run the tool, report its result. */
  function CallTool(env: Environment, trigger: Json, round: nat, done: seq<ToolResult>,
                    events: seq<Event>, requests: seq<Request>, name: string, args: Json): (r: Run)
    requires RoundStart(env, trigger, round, done, events, requests)
    requires round < MaxRounds && round < |env.responses| && !Final(env.responses[round])
    requires FirstCall(env.responses[round]).value.name == name
    requires ParseArgs(env, FirstCall(env.responses[round]).value.arguments) == Some(args)
    ensures RunSpec(env, trigger, r)
    ensures round <= |r.toolResults| && r.toolResults[..round] == done
    decreases MaxRounds - round, 0
  {
    var requests' := requests + [BuildRequest(trigger, done)];
    if name !in ToolNames then
      EarlyStop(env, trigger, round, done, events, requests, Threw(ToolUndefined(name, args)));
      Run(requests', events + [PreCall(name, args)], done, Threw(ToolUndefined(name, args)))
    else
      match env.tools(name, args)
      case None =>
        EarlyStop(env, trigger, round, done, events, requests, Threw(ToolThrew(name, args)));
        Run(requests', events + [PreCall(name, args)], done, Threw(ToolThrew(name, args)))
      case Some(result) =>
        var t := ToolResult(name, args, result);
        NextRound(env, trigger, round, done, events, requests, t);
        var r := Loop(env, trigger, round + 1, done + [t],
                      events + [PreCall(name, args), PostCall(t)], requests');
        assert r.toolResults[..round] == r.toolResults[..round + 1][..round];
        r
  }

  lemma LimitStop(env: Environment, trigger: Json, done: seq<ToolResult>,
                  events: seq<Event>, requests: seq<Request>)
    requires RoundStart(env, trigger, MaxRounds, done, events, requests)
    ensures RunSpec(env, trigger, Run(requests, events + [AgentDone(LimitSummary)], done, Returned(LimitSummary)))
  {
    assert done[..MaxRounds] == done;
  }

  /** A run that stops in round `round` with `outcome`, before completing a tool call. */
  lemma EarlyStop(env: Environment, trigger: Json, round: nat, done: seq<ToolResult>,
                  events: seq<Event>, requests: seq<Request>, outcome: Outcome)
    requires RoundStart(env, trigger, round, done, events, requests)
    requires round < MaxRounds
    requires Stopped(env, round, outcome)
    ensures RunSpec(env, trigger, Run(requests + [BuildRequest(trigger, done)], events + Ending(outcome), done, outcome))
  {
    assert done[..round] == done;
  }

  /** A completed tool call leads to the start of the next round. */
  lemma NextRound(env: Environment, trigger: Json, round: nat, done: seq<ToolResult>,
                  events: seq<Event>, requests: seq<Request>, t: ToolResult)
    requires RoundStart(env, trigger, round, done, events, requests)
    requires round < MaxRounds
    requires ToolRound(env, round, t)
    ensures RoundStart(env, trigger, round + 1, done + [t],
                       events + [PreCall(t.name, t.args), PostCall(t)],
                       requests + [BuildRequest(trigger, done)])
  {
    var done' := done + [t];
    assert done'[..|done'| - 1] == done;
    assert done'[..round] == done;
    assert forall j :: 0 <= j < round ==> done'[..j] == done[..j];
  }

  /** `runAgentOnce(trigger)`. */
  function RunAgentOnce(env: Environment, trigger: Json): (r: Run)
    ensures RunSpec(env, trigger, r)
  {
    Loop(env, trigger, 0, [], [], [])
  }

  /** How many `agent_done` events a trace holds. */
  function DoneCount(es: seq<Event>): nat {
    if es == [] then 0 else (if es[0].AgentDone? then 1 else 0) + DoneCount(es[1..])
  }

  lemma {:induction false} DoneCountAppend(a: seq<Event>, b: seq<Event>)
    ensures DoneCount(a + b) == DoneCount(a) + DoneCount(b)
    decreases |a|
  {
    if a == [] {
      assert a + b == b;
    } else {
      assert (a + b)[1..] == a[1..] + b;
      DoneCountAppend(a[1..], b);
    }
  }

  /** Tool rounds emit two `agent_action` events each, with the call's name and arguments, the second with its result. */
  lemma {:induction false} ActionPairsShape(done: seq<ToolResult>)
    ensures |ActionPairs(done)| == 2 * |done|
    ensures forall j :: 0 <= j < |done| ==>
      && ActionPairs(done)[2 * j] == AgentAction(Action(done[j].name, done[j].args, None, None))
      && ActionPairs(done)[2 * j + 1] == AgentAction(Action(done[j].name, done[j].args, Some(done[j].result), None))
    ensures DoneCount(ActionPairs(done)) == 0
    decreases |done|
  {
    if done != [] {
      var init := done[..|done| - 1];
      var t := done[|done| - 1];
      ActionPairsShape(init);
      var pair := [PreCall(t.name, t.args), PostCall(t)];
      assert DoneCount(pair) == DoneCount(pair[1..]) == DoneCount([]);
      DoneCountAppend(ActionPairs(init), pair);
      assert forall j :: 0 <= j < |init| ==> init[j] == done[j];
    }
  }

  /**
    A run that returns emits exactly one `agent_done`, as its last event,
    carrying the returned summary; a run that throws emits none.
   */
  lemma ExactlyOneDone(env: Environment, trigger: Json)
    ensures var r := RunAgentOnce(env, trigger);
      r.outcome.Returned? ==>
        DoneCount(r.events) == 1 && r.events[|r.events| - 1] == AgentDone(r.outcome.summary)
    ensures var r := RunAgentOnce(env, trigger);
      r.outcome.Threw? ==> DoneCount(r.events) == 0
  {
    var r := RunAgentOnce(env, trigger);
    ActionPairsShape(r.toolResults);
    DoneCountAppend(ActionPairs(r.toolResults), Ending(r.outcome));
  }

  /**
    A throwing tool or an undefined tool name aborts the run right after the
    pre-call `agent_action`: no post-call action and no `agent_done` follow.
   */
  lemma ToolFailureAborts(env: Environment, trigger: Json)
    ensures var r := RunAgentOnce(env, trigger);
      (r.outcome.Threw? && (r.outcome.reason.ToolUndefined? || r.outcome.reason.ToolThrew?)) ==>
        && |r.events| == 2 * |r.toolResults| + 1
        && r.events[|r.events| - 1] == AgentAction(Action(r.outcome.reason.name, r.outcome.reason.args, None, None))
        && DoneCount(r.events) == 0
  {
    var r := RunAgentOnce(env, trigger);
    ActionPairsShape(r.toolResults);
    DoneCountAppend(ActionPairs(r.toolResults), Ending(r.outcome));
  }

  /** The model request of round `j` carries the `tool` message exactly when `j > 0`, with the `j` earlier results. */
  lemma RequestsCarryEarlierResults(env: Environment, trigger: Json, j: nat)
    requires j < |RunAgentOnce(env, trigger).requests|
    ensures var r := RunAgentOnce(env, trigger);
      j <= |r.toolResults|
      && r.requests[j].messages[..2] == [System(SystemPrompt), User(trigger)]
      && (j == 0 <==> |r.requests[j].messages| == 2)
      && (j > 0 ==> r.requests[j].messages[2..] == [ToolMessage(r.toolResults[..j])])
  {
  }

  /** A first answer that asks for no function call ends the run at once with its content, or the default when it has none. */
  lemma AnswerWithoutToolCall(env: Environment, trigger: Json)
    requires |env.responses| > 0 && Final(env.responses[0])
    ensures var r := RunAgentOnce(env, trigger);
      && |r.requests| == 1
      && r.toolResults == []
      && r.outcome == Returned(env.responses[0].content.GetOr(NoIssuesSummary))
      && r.events == [AgentDone(r.outcome.summary)]
    ensures env.responses[0].content == Some("") ==> RunAgentOnce(env, trigger).outcome == Returned("")
  {
  }

  /** Round `k` asks for a defined tool with well-formed arguments, and the tool answers. */
  ghost predicate ToolSucceeds(env: Environment, k: nat) {
    && k < |env.responses|
    && !Final(env.responses[k])
    && var call := FirstCall(env.responses[k]).value;
    && call.name in ToolNames
    && ParseArgs(env, call.arguments).Some?
    && env.tools(call.name, ParseArgs(env, call.arguments).value).Some?
  }

  /**
    Three successful tool rounds in a row end the run with the limit summary,
    in the returned value and in the final `agent_done`; the third request
    carries the two earlier results.
   */
  lemma ToolCallLimit(env: Environment, trigger: Json)
    requires forall k :: 0 <= k < MaxRounds ==> ToolSucceeds(env, k)
    ensures var r := RunAgentOnce(env, trigger);
      && |r.toolResults| == MaxRounds
      && |r.requests| == MaxRounds
      && r.outcome == Returned(LimitSummary)
      && r.events[|r.events| - 1] == AgentDone(LimitSummary)
      && r.requests[2].messages[2] == ToolMessage(r.toolResults[..2])
  {
    var r := RunAgentOnce(env, trigger);
    if |r.toolResults| < MaxRounds {
      SucceedingRoundIsNotStop(env, |r.toolResults|, r.outcome);
    }
  }

  /** A round whose tool call succeeds does not stop the run. */
  lemma SucceedingRoundIsNotStop(env: Environment, k: nat, o: Outcome)
    requires ToolSucceeds(env, k)
    ensures !Stopped(env, k, o)
  {
  }

  /** Two model answer sequences that agree on each answer's content and first tool call. */
  ghost predicate SameDecisions(a: seq<Message>, b: seq<Message>) {
    && |a| == |b|
    && forall i :: 0 <= i < |a| ==> a[i].content == b[i].content && FirstCall(a[i]) == FirstCall(b[i])
  }

  /** Answer sequences with the same decisions lead every round the same way. */
  lemma SameRoundDecisions(env: Environment, responses: seq<Message>, k: nat, t: ToolResult, o: Outcome)
    requires SameDecisions(env.responses, responses)
    ensures ToolRound(env, k, t) <==> ToolRound(env.(responses := responses), k, t)
    ensures Stopped(env, k, o) <==> Stopped(env.(responses := responses), k, o)
  {
    if k < |responses| {
      assert FirstCall(env.responses[k]) == FirstCall(responses[k]);
      assert env.responses[k].content == responses[k].content;
    }
  }

  /** A round that completes a tool call does not stop the run. */
  lemma ToolRoundIsNotStop(env: Environment, k: nat, t: ToolResult, o: Outcome)
    requires ToolRound(env, k, t)
    ensures !Stopped(env, k, o)
  {
  }

  /** A round completes at most one tool result. */
  lemma ToolRoundUnique(env: Environment, k: nat, t1: ToolResult, t2: ToolResult)
    requires ToolRound(env, k, t1) && ToolRound(env, k, t2)
    ensures t1 == t2
  {
  }

  /** A round stops the run in at most one way. */
  lemma StoppedUnique(env: Environment, k: nat, o1: Outcome, o2: Outcome)
    requires Stopped(env, k, o1) && Stopped(env, k, o2)
    ensures o1 == o2
  {
  }

  /** The tool results of runs under the same decisions agree on their common rounds. */
  lemma SameToolResults(env: Environment, responses: seq<Message>, trigger: Json,
                        r1: Run, r2: Run, k: nat)
    requires SameDecisions(env.responses, responses)
    requires RunSpec(env, trigger, r1) && RunSpec(env.(responses := responses), trigger, r2)
    requires k <= |r1.toolResults| && k <= |r2.toolResults|
    ensures r1.toolResults[..k] == r2.toolResults[..k]
  {
    var env2 := env.(responses := responses);
    forall i | 0 <= i < k
      ensures r1.toolResults[i] == r2.toolResults[i]
    {
      assert ToolRound(env2, i, r2.toolResults[i]);
      SameRoundDecisions(env, responses, i, r2.toolResults[i], Returned(""));
      ToolRoundUnique(env, i, r1.toolResults[i], r2.toolResults[i]);
    }
  }

  /** Runs under the same decisions complete the same number of tool rounds. */
  lemma SameRoundCount(env: Environment, responses: seq<Message>, trigger: Json, r1: Run, r2: Run)
    requires SameDecisions(env.responses, responses)
    requires RunSpec(env, trigger, r1) && RunSpec(env.(responses := responses), trigger, r2)
    ensures |r1.toolResults| == |r2.toolResults|
  {
    var env2 := env.(responses := responses);
    var k1 := |r1.toolResults|;
    var k2 := |r2.toolResults|;
    if k1 < k2 {
      assert ToolRound(env2, k1, r2.toolResults[k1]);
      SameRoundDecisions(env, responses, k1, r2.toolResults[k1], r1.outcome);
      ToolRoundIsNotStop(env, k1, r2.toolResults[k1], r1.outcome);
    } else if k2 < k1 {
      assert ToolRound(env, k2, r1.toolResults[k2]);
      SameRoundDecisions(env, responses, k2, r1.toolResults[k2], r2.outcome);
      ToolRoundIsNotStop(env, k2, r1.toolResults[k2], r2.outcome);
    }
  }

  /**
    Only the first tool call of an answer matters: answers that agree on
    their content and first call give the same run.
   */
  lemma OnlyFirstCallMatters(env: Environment, responses: seq<Message>, trigger: Json)
    requires SameDecisions(env.responses, responses)
    ensures RunAgentOnce(env, trigger) == RunAgentOnce(env.(responses := responses), trigger)
  {
    var env2 := env.(responses := responses);
    var r1 := RunAgentOnce(env, trigger);
    var r2 := RunAgentOnce(env2, trigger);
    SameRoundCount(env, responses, trigger, r1, r2);
    var k := |r1.toolResults|;
    SameToolResults(env, responses, trigger, r1, r2, k);
    assert r1.toolResults == r2.toolResults by {
      assert r1.toolResults == r1.toolResults[..k];
      assert r2.toolResults == r2.toolResults[..k];
    }
    assert r1.outcome == r2.outcome by {
      if k < MaxRounds {
        SameRoundDecisions(env, responses, k, ToolResult("", JNull, JNull), r2.outcome);
        StoppedUnique(env, k, r1.outcome, r2.outcome);
      }
    }
    assert r1.requests == r2.requests;
  }

  /**
    An example run: the model asks for `recent_errors`, the tool reports no
    errors, and the model then answers in text.
   */
  lemma RecentErrorsExample(parse: string -> Option<Json>, tools: (string, Json) -> Option<Json>)
    requires parse("{\"since\":\"2024-01-01T00:00:00Z\"}") == Some(JObject([("since", JString("2024-01-01T00:00:00Z"))]))
    requires tools("recent_errors", JObject([("since", JString("2024-01-01T00:00:00Z"))]))
      == Some(JObject([("count", JNumber(0.0))]))
    ensures var args := JObject([("since", JString("2024-01-01T00:00:00Z"))]);
      var result := JObject([("count", JNumber(0.0))]);
      var env := Environment([
        Message(None, [FunctionCall("recent_errors", "{\"since\":\"2024-01-01T00:00:00Z\"}")]),
        Message(Some("No errors found; system healthy."), [])], parse, tools);
      var r := RunAgentOnce(env, JObject([("reason", JString("manual"))]));
      && r.outcome == Returned("No errors found; system healthy.")
      && r.events == [
        AgentAction(Action("recent_errors", args, None, None)),
        AgentAction(Action("recent_errors", args, Some(result), None)),
        AgentDone("No errors found; system healthy.")]
  {
    var args := JObject([("since", JString("2024-01-01T00:00:00Z"))]);
    var result := JObject([("count", JNumber(0.0))]);
    var env := Environment([
      Message(None, [FunctionCall("recent_errors", "{\"since\":\"2024-01-01T00:00:00Z\"}")]),
      Message(Some("No errors found; system healthy."), [])], parse, tools);
    var r := RunAgentOnce(env, JObject([("reason", JString("manual"))]));
    assert ToolSucceeds(env, 0);
    assert |r.toolResults| >= 1;
    assert r.toolResults[0] == ToolResult("recent_errors", args, result);
    assert |r.toolResults| == 1;
    assert r.toolResults == [ToolResult("recent_errors", args, result)];
    assert Stopped(env, 1, r.outcome);
    assert ActionPairs(r.toolResults) == [PreCall("recent_errors", args), PostCall(r.toolResults[0])];
  }
}

=== FILE: bus.dfy ===
/**
  The process-wide event bus of `web-app/src/lib/bus.ts`: a Node.js
  `EventEmitter` used on the single channel `"event"`. Listeners are
  identified by their callback reference; registering the same callback
  twice keeps two registrations.
 */
module Bus {
  import opened Wrappers
  import opened Json

  /** The `data` of an `agent_action` event. */
  datatype Action = Action(name: string, args: Json, result: Option<Json>, error: Option<string>)

  /** The closed union of events the bus carries. */
  datatype Event =
    | Telemetry(data: Json)
    | AgentLog(message: string)
    | AgentAction(action: Action)
    | AgentDone(summary: string)

  /** A registered callback, standing for its function reference. */
  type Listener = nat

  /** The listener array of the `"event"` channel, in registration order. */
  datatype Bus = Bus(listeners: seq<Listener>)

  /** One call of one listener with one event. */
  datatype Delivery = Delivery(listener: Listener, event: Event)

  const EmptyBus: Bus := Bus([])

  /** How many registrations `cb` has. */
  function Registrations(b: Bus, cb: Listener): nat {
    multiset(b.listeners)[cb]
  }

  /** `bus.onEvent(cb)`: `on` appends to the end of the listener array, duplicates included. */
  function OnEvent(b: Bus, cb: Listener): (r: Bus)
    ensures |r.listeners| == |b.listeners| + 1
    ensures r.listeners[..|b.listeners|] == b.listeners
    ensures r.listeners[|b.listeners|] == cb
    ensures Registrations(r, cb) == Registrations(b, cb) + 1
    ensures forall l :: l != cb ==> Registrations(r, l) == Registrations(b, l)
  {
    assert (b.listeners + [cb])[..|b.listeners|] == b.listeners;
    Bus(b.listeners + [cb])
  }

  /** The position of the most recent registration of `cb`, if any. */
  function LastIndexOf(ls: seq<Listener>, cb: Listener): (r: Option<nat>)
    ensures r.None? <==> cb !in ls
    ensures r.Some? ==> r.value < |ls| && ls[r.value] == cb && cb !in ls[r.value + 1..]
  {
    if ls == [] then None
    else if ls[|ls| - 1] == cb then Some(|ls| - 1)
    else
      var r := LastIndexOf(ls[..|ls| - 1], cb);
      assert forall i :: 0 <= i < |ls| - 1 ==> ls[..|ls| - 1][i] == ls[i];
      r
  }

  /**
    `bus.offEvent(cb)`: `off` (`removeListener`) scans the listener array from
    the end and removes the most recent registration of `cb` only; an
    unregistered callback leaves the bus as it is.
   */
  function OffEvent(b: Bus, cb: Listener): (r: Bus)
    ensures cb !in b.listeners ==> r == b
    ensures cb in b.listeners ==> Registrations(r, cb) == Registrations(b, cb) - 1
    ensures forall l :: l != cb ==> Registrations(r, l) == Registrations(b, l)
    ensures cb in b.listeners ==> exists i ::
      0 <= i < |b.listeners| && b.listeners[i] == cb && cb !in b.listeners[i + 1..]
      && r.listeners == b.listeners[..i] + b.listeners[i + 1..]
  {
    match LastIndexOf(b.listeners, cb)
    case None => b
    case Some(i) =>
      var ls := b.listeners;
      assert ls == ls[..i] + [ls[i]] + ls[i + 1..];
      Bus(ls[..i] + ls[i + 1..])
  }

  /** One delivery of `e` to each of `ls`, in order. */
  function Deliver(ls: seq<Listener>, e: Event): (ds: seq<Delivery>)
    ensures |ds| == |ls|
    ensures forall i :: 0 <= i < |ls| ==> ds[i] == Delivery(ls[i], e)
  {
    if ls == [] then [] else [Delivery(ls[0], e)] + Deliver(ls[1..], e)
  }

  /**
    `bus.emitEvent(e)`: `emit` calls, with `e` unchanged, every listener
    registered when the call starts, once per registration and in
    registration order. The bus itself is not changed.
   */
  function EmitEvent(b: Bus, e: Event): (ds: seq<Delivery>)
    ensures |ds| == |b.listeners|
    ensures forall i :: 0 <= i < |ds| ==> ds[i].listener == b.listeners[i] && ds[i].event == e
  {
    Deliver(b.listeners, e)
  }

  /** The events a listener receives from a series of deliveries, in order. */
  function ReceivedBy(ds: seq<Delivery>, l: Listener): seq<Event>
  {
    if ds == [] then []
    else (if ds[0].listener == l then [ds[0].event] else []) + ReceivedBy(ds[1..], l)
  }

  /** `n` copies of `e`. */
  function Repeat(e: Event, n: nat): (r: seq<Event>)
    ensures |r| == n
  {
    if n == 0 then [] else [e] + Repeat(e, n - 1)
  }

  lemma {:induction false} ReceivedByAppend(a: seq<Delivery>, b: seq<Delivery>, l: Listener)
    ensures ReceivedBy(a + b, l) == ReceivedBy(a, l) + ReceivedBy(b, l)
    decreases |a|
  {
    if a == [] {
      assert a + b == b;
    } else {
      var head := if a[0].listener == l then [a[0].event] else [];
      assert (a + b)[0] == a[0];
      assert (a + b)[1..] == a[1..] + b;
      ReceivedByAppend(a[1..], b, l);
      assert ReceivedBy(a + b, l) == head + (ReceivedBy(a[1..], l) + ReceivedBy(b, l));
    }
  }

  /** One `emitEvent` reaches a listener once per registration. */
  lemma {:induction false} DeliverReachesEachRegistration(ls: seq<Listener>, e: Event, l: Listener)
    ensures ReceivedBy(Deliver(ls, e), l) == Repeat(e, multiset(ls)[l])
    decreases |ls|
  {
    if ls != [] {
      var ds := Deliver(ls, e);
      var rest := ReceivedBy(ds[1..], l);
      assert ds[1..] == Deliver(ls[1..], e);
      DeliverReachesEachRegistration(ls[1..], e, l);
      assert rest == Repeat(e, multiset(ls[1..])[l]);
      assert ls == [ls[0]] + ls[1..];
      assert multiset(ls) == multiset{ls[0]} + multiset(ls[1..]);
      if ls[0] == l {
        assert ReceivedBy(ds, l) == [e] + rest;
      } else {
        assert ReceivedBy(ds, l) == rest;
      }
    }
  }

  /** One `emitEvent` reaches a listener once per registration. */
  lemma EmitReachesEachRegistration(b: Bus, e: Event, l: Listener)
    ensures ReceivedBy(EmitEvent(b, e), l) == Repeat(e, Registrations(b, l))
  {
    DeliverReachesEachRegistration(b.listeners, e, l);
  }

  /** Emitting with no listeners delivers nothing. */
  lemma EmitWithoutListeners(e: Event)
    ensures EmitEvent(EmptyBus, e) == []
  {
  }

  /** Publishing a series of events, one `emitEvent` after another. */
  function Broadcast(b: Bus, es: seq<Event>): seq<Delivery>
  {
    if es == [] then [] else EmitEvent(b, es[0]) + Broadcast(b, es[1..])
  }

  /**
    A listener registered once receives a published series exactly, in
    publish order; an unregistered one receives nothing.
   */
  lemma {:induction false} BroadcastOrder(b: Bus, es: seq<Event>, l: Listener)
    requires Registrations(b, l) <= 1
    ensures ReceivedBy(Broadcast(b, es), l) == if Registrations(b, l) == 1 then es else []
    decreases |es|
  {
    if es != [] {
      BroadcastOrder(b, es[1..], l);
      ReceivedByAppend(EmitEvent(b, es[0]), Broadcast(b, es[1..]), l);
      EmitReachesEachRegistration(b, es[0], l);
      assert [es[0]] + es[1..] == es;
    }
  }

  /** Registering a callback twice and removing it once leaves one extra registration. */
  lemma DuplicateRegistration(b: Bus, cb: Listener, e: Event)
    ensures Registrations(OffEvent(OnEvent(OnEvent(b, cb), cb), cb), cb) == Registrations(b, cb) + 1
    ensures |ReceivedBy(EmitEvent(OffEvent(OnEvent(OnEvent(b, cb), cb), cb), e), cb)| == Registrations(b, cb) + 1
  {
    var b2 := OnEvent(OnEvent(b, cb), cb);
    assert cb in b2.listeners;
    EmitReachesEachRegistration(OffEvent(b2, cb), e, cb);
  }
}

=== FILE: event_log.dfy ===
/**
  The event log of the engineering page (`web-app/src/app/engineering/page.tsx`):
  every server-sent event is appended to a window that keeps only the last
  200 events, and an `agent_done` event replaces the shown summary.
 */
module EventLog {
  import opened Wrappers
  import Js
  import opened Bus
  import Agent

  /** The number of events the page keeps. */
  const Capacity: int := 200

  /** The greeting the stream route sends first on every connection. */
  const Greeting: string := "sse connected"

  /** The page's `Evt`: the stream's `hello` or a bus event relayed verbatim. */
  datatype Evt = Hello(greeting: string) | Relayed(event: Event)

  /** The page state the reducer touches: the event window and the summary (`null` is `None`). */
  datatype View = View(events: seq<Evt>, summary: Option<string>)

  const Initial: View := View([], None)

  predicate IsDone(e: Evt) {
    e.Relayed? && e.event.AgentDone?
  }

  /** `onmessage`: append to the window, keep its last 200, and take an `agent_done` summary. */
  function Receive(v: View, e: Evt): (r: View)
    ensures 0 < |r.events| <= Capacity
    ensures r.events[|r.events| - 1] == e
    ensures |v.events| < Capacity ==> r.events == v.events + [e]
    ensures |v.events| >= Capacity ==> r.events == v.events[|v.events| - Capacity + 1..] + [e]
    ensures IsDone(e) ==> r.summary == Some(e.event.summary)
    ensures !IsDone(e) ==> r.summary == v.summary
  {
    Js.SliceLast(v.events + [e], Capacity);
    assert |v.events| >= Capacity ==>
      (v.events + [e])[|v.events| + 1 - Capacity..] == v.events[|v.events| - Capacity + 1..] + [e];
    View(Js.SliceFrom(v.events + [e], -Capacity),
         if IsDone(e) then Some(e.event.summary) else v.summary)
  }

  /** The page state after receiving `es` in order. */
  function ReceiveAll(v: View, es: seq<Evt>): View
    decreases |es|
  {
    if es == [] then v else Receive(ReceiveAll(v, es[..|es| - 1]), es[|es| - 1])
  }

  /** Reference definition: the last `min(200, |es|)` events. */
  function Window(es: seq<Evt>): (w: seq<Evt>)
    ensures |w| <= Capacity
  {
    if |es| <= Capacity then es else es[|es| - Capacity..]
  }

  /** Reference definition: the summary of the latest `agent_done` in `es`, if any. */
  function LatestSummary(es: seq<Evt>, otherwise: Option<string>): Option<string>
    decreases |es|
  {
    if es == [] then otherwise
    else if IsDone(es[|es| - 1]) then Some(es[|es| - 1].event.summary)
    else LatestSummary(es[..|es| - 1], otherwise)
  }

  /**
    Starting from an empty page, the reducer holds exactly the last 200
    events received and the summary of the latest `agent_done`.
   */
  lemma {:induction false} ReplayFromEmpty(es: seq<Evt>)
    ensures ReceiveAll(Initial, es) == View(Window(es), LatestSummary(es, None))
  {
    ReplayWindow(Initial, es);
  }

  /** From any window of at most 200 events, replaying `es` keeps the last 200 of the concatenation. */
  lemma {:induction false} ReplayWindow(v: View, es: seq<Evt>)
    requires |v.events| <= Capacity
    ensures ReceiveAll(v, es) == View(Window(v.events + es), LatestSummary(es, v.summary))
    decreases |es|
  {
    if es == [] {
      assert v.events + es == v.events;
    } else {
      var init, e := es[..|es| - 1], es[|es| - 1];
      ReplayWindow(v, init);
      ReceiveStep(v.events + init, LatestSummary(init, v.summary), e);
      assert v.events + es == (v.events + init) + [e];
    }
  }

  /** Receiving one more event moves the reference window and summary along by that event. */
  lemma ReceiveStep(xs: seq<Evt>, s: Option<string>, e: Evt)
    ensures Receive(View(Window(xs), s), e).events == Window(xs + [e])
    ensures Receive(View(Window(xs), s), e).summary == if IsDone(e) then Some(e.event.summary) else s
  {
    if |xs| >= Capacity {
      assert (xs + [e])[|xs| + 1 - Capacity..] == xs[|xs| - Capacity..][1..] + [e];
    }
  }

  /** The events of a bus trace as the page receives them. */
  function Relay(es: seq<Event>): (r: seq<Evt>)
    ensures |r| == |es|
    ensures forall i :: 0 <= i < |es| ==> r[i] == Relayed(es[i])
  {
    seq(|es|, i requires 0 <= i < |es| => Relayed(es[i]))
  }

  /** Events without `agent_done` never change the summary. */
  lemma {:induction false} NoDoneKeepsSummary(es: seq<Evt>, otherwise: Option<string>)
    requires forall i :: 0 <= i < |es| ==> !IsDone(es[i])
    ensures LatestSummary(es, otherwise) == otherwise
    decreases |es|
  {
    if es != [] {
      NoDoneKeepsSummary(es[..|es| - 1], otherwise);
    }
  }

  /** Relayed events hold an `agent_done` exactly where the trace does. */
  lemma {:induction false} RelayDoneCount(es: seq<Event>)
    ensures Agent.DoneCount(es) == 0 ==> forall i :: 0 <= i < |es| ==> !IsDone(Relay(es)[i])
    decreases |es|
  {
    if es != [] && Agent.DoneCount(es) == 0 {
      assert !es[0].AgentDone?;
      RelayDoneCount(es[1..]);
      forall i | 0 <= i < |es|
        ensures !IsDone(Relay(es)[i])
      {
        if i > 0 {
          assert Relay(es)[i] == Relay(es[1..])[i - 1];
        }
      }
    }
  }

  /**
    A freshly connected page that receives the greeting and then every event
    of one agent run shows that run's summary when the run returns, and
    still no summary when the run throws.
   */
  lemma ConnectedPageShowsRunSummary(env: Agent.Environment, trigger: Json.Json)
    ensures var r := Agent.RunAgentOnce(env, trigger);
      var page := ReceiveAll(Initial, [Hello(Greeting)] + Relay(r.events));
      && (r.outcome.Returned? ==> page.summary == Some(r.outcome.summary))
      && (r.outcome.Threw? ==> page.summary == None)
  {
    var r := Agent.RunAgentOnce(env, trigger);
    var es := [Hello(Greeting)] + Relay(r.events);
    Agent.ExactlyOneDone(env, trigger);
    ReplayFromEmpty(es);
    if r.outcome.Returned? {
      assert es[|es| - 1] == Relayed(r.events[|r.events| - 1]);
    } else {
      RelayDoneCount(r.events);
      forall i | 0 <= i < |es|
        ensures !IsDone(es[i])
      {
        if i > 0 {
          assert es[i] == Relay(r.events)[i - 1];
        }
      }
      NoDoneKeepsSummary(es, None);
    }
  }
}

=== FILE: hashing.dfy ===
/** Cache keys built by `key_for` in `rest-api/app/utils/hashing.py`. */
module Hashing {
  import opened Text

  /** `key_for(prefix, *parts)`; the parts are given after their `str()` conversion. */
  function KeyFor(prefix: string, parts: seq<string>): (key: string)
    ensures |key| >= |prefix| + 1 && key[..|prefix| + 1] == prefix + "|"
    ensures parts == [] ==> key == prefix + "|"
    ensures |parts| >= 1 ==> key == Join("|", [prefix] + parts)
  {
    var all := [prefix] + parts;
    assert all[1..] == parts;
    prefix + "|" + Join("|", parts)
  }

  /** With `k >= 1` parts the key is as long as the prefix, the parts and `k` separators. */
  lemma KeyForLength(prefix: string, parts: seq<string>)
    requires |parts| >= 1
    ensures |KeyFor(prefix, parts)| == |prefix| + 1 + TotalLength(parts) + (|parts| - 1)
  {
    JoinLength("|", parts);
  }

  /** When no piece contains `|`, splitting a key on `|` recovers the prefix and the parts. */
  lemma KeyForSplit(prefix: string, parts: seq<string>)
    requires |parts| >= 1
    requires '|' !in prefix
    requires forall i :: 0 <= i < |parts| ==> '|' !in parts[i]
    ensures Split(KeyFor(prefix, parts), '|') == [prefix] + parts
  {
    var all := [prefix] + parts;
    forall i | 0 <= i < |all|
      ensures '|' !in all[i]
    {
      if i > 0 {
        assert all[i] == parts[i - 1];
      }
    }
    SplitJoin(all, '|');
  }

  /** Without parts the key ends in a separator, so it splits into the prefix and an empty piece. */
  lemma KeyForNoPartsSplit(prefix: string)
    requires '|' !in prefix
    ensures Split(KeyFor(prefix, []), '|') == [prefix, ""]
  {
    SplitFirst(prefix, '|', "");
  }
}

=== FILE: js.dfy ===
/**
  JavaScript's `Array.prototype.slice` and `String.prototype.slice`, which
  share one index algorithm: negative indices count from the end, and both
  indices are clamped to the sequence.
 */
module Js {

  /** The index a relative `slice` argument denotes in a sequence of length `len`. */
  function RelativeIndex(k: int, len: nat): (i: nat)
    ensures i <= len
    ensures k < 0 ==> (len + k <= 0 ==> i == 0) && (len + k > 0 ==> i == len + k)
    ensures k >= 0 ==> i == if k < len then k else len
  {
    if k < 0 then (if len + k < 0 then 0 else len + k)
    else if k < len then k else len
  }

  /** `xs.slice(start, end)`. */
  function Slice<T>(xs: seq<T>, start: int, end: int): (r: seq<T>)
    ensures |r| <= |xs|
  {
    var from := RelativeIndex(start, |xs|);
    var to := RelativeIndex(end, |xs|);
    if from < to then xs[from..to] else []
  }

  /** `xs.slice(start)`: the end defaults to the length. */
  function SliceFrom<T>(xs: seq<T>, start: int): (r: seq<T>)
    ensures |r| <= |xs|
  {
    Slice(xs, start, |xs|)
  }

  /** `xs.slice(0, n)` with `n >= 0` keeps the first `min(n, |xs|)` elements. */
  lemma SlicePrefix<T>(xs: seq<T>, n: nat)
    ensures Slice(xs, 0, n) == xs[..if n < |xs| then n else |xs|]
  {
  }

  /** `xs.slice(-n)` with `n > 0` keeps the last `min(n, |xs|)` elements. */
  lemma SliceLast<T>(xs: seq<T>, n: int)
    requires n > 0
    ensures |xs| <= n ==> SliceFrom(xs, -n) == xs
    ensures |xs| > n ==> SliceFrom(xs, -n) == xs[|xs| - n..]
  {
  }
}

=== FILE: json.dfy ===
/** JSON values, as carried by the `any`-typed fields of events, tool arguments and tool results. */
module Json {

  datatype Json =
    | JNull
    | JBool(b: bool)
    | JNumber(n: real)
    | JString(s: string)
    | JArray(items: seq<Json>)
    | JObject(members: seq<(string, Json)>)

  /** The empty object `{}`. */
  const EmptyObject: Json := JObject([])
}

=== FILE: lru_cache.dfy ===
/**
  The in-process LRU cache of `rest-api/app/services/cache.py`: an ordered
  dictionary whose insertion order is the recency order, oldest first. The
  `ttl` argument of `set` is accepted and ignored.
 */
module LruCache {
  import opened Wrappers

  datatype Entry<K, V> = Entry(key: K, value: V)

  /** The cache's state: its entries, least recently used first, and its capacity. */
  datatype Cache<K, V> = Cache(entries: seq<Entry<K, V>>, maxItems: int)

  /** The error the constructor raises. */
  datatype CacheError = ValueError(message: string)

  /** The capacity the constructor uses by default and the module-level singleton uses. */
  const DefaultMaxItems: int := 2000

  function Keys<K, V>(es: seq<Entry<K, V>>): (ks: seq<K>)
    ensures |ks| == |es|
    ensures forall i :: 0 <= i < |es| ==> ks[i] == es[i].key
  {
    if es == [] then [] else [es[0].key] + Keys(es[1..])
  }

  ghost predicate DistinctKeys<K, V>(es: seq<Entry<K, V>>) {
    forall i, j :: 0 <= i < j < |es| ==> es[i].key != es[j].key
  }

  /** What every cache built by the constructor and changed by `get`/`set` satisfies. */
  ghost predicate Valid<K, V>(c: Cache<K, V>) {
    && c.maxItems > 0
    && |c.entries| <= c.maxItems
    && DistinctKeys(c.entries)
  }

  /** The value stored under `k`, if any: an independent reading of the store. */
  function Lookup<K(==), V>(es: seq<Entry<K, V>>, k: K): Option<V>
  {
    if es == [] then None
    else if es[0].key == k then Some(es[0].value)
    else Lookup(es[1..], k)
  }

  /** The position of `k` in the recency order, if it is stored. */
  function Find<K(==), V>(es: seq<Entry<K, V>>, k: K): (r: Option<nat>)
    ensures r.None? <==> k !in Keys(es)
    ensures r.Some? ==> r.value < |es| && es[r.value].key == k
    ensures r.Some? ==> forall j :: 0 <= j < r.value ==> es[j].key != k
  {
    if es == [] then None
    else if es[0].key == k then Some(0)
    else
      match Find(es[1..], k)
      case None => None
      case Some(i) => Some(i + 1)
  }

  /** The entries without the one at position `i`, the others in their order. */
  function Without<K, V>(es: seq<Entry<K, V>>, i: nat): (r: seq<Entry<K, V>>)
    requires i < |es|
    ensures |r| == |es| - 1
  {
    es[..i] + es[i + 1..]
  }

  /** `LRUCache(max_items)`: rejects a non-positive capacity. */
  function New<K, V>(maxItems: int): (r: Result<Cache<K, V>, CacheError>)
    ensures r.Failure? <==> maxItems <= 0
    ensures r.Success? ==> Valid(r.value) && r.value.entries == [] && r.value.maxItems == maxItems
  {
    if maxItems <= 0 then Failure(ValueError("max_items must be positive"))
    else Success(Cache([], maxItems))
  }

  /** The module-level `cache` singleton: an empty, valid cache of the default capacity. */
  lemma DefaultCache<K, V>()
    ensures New<K, V>(DefaultMaxItems).Success?
    ensures New<K, V>(DefaultMaxItems).value == Cache([], 2000)
  {
  }

  /** `len(cache)`. */
  function Len<K, V>(c: Cache<K, V>): nat {
    |c.entries|
  }

  /**
    `cache.get(k)`: the stored value, with `k` moved to the most recent end;
    `None` and no change when `k` is absent.
   */
  function Get<K(==), V>(c: Cache<K, V>, k: K): (r: (Option<V>, Cache<K, V>))
    ensures r.0.None? <==> k !in Keys(c.entries)
    ensures r.0.None? ==> r.1 == c
    ensures r.0.Some? ==> Entry(k, r.0.value) in c.entries
    ensures r.0.Some? ==> r.1.maxItems == c.maxItems
    ensures r.0.Some? ==> |r.1.entries| > 0 && r.1.entries[|r.1.entries| - 1] == Entry(k, r.0.value)
    ensures multiset(r.1.entries) == multiset(c.entries)
    ensures r.0.Some? ==> r.1.entries[..|r.1.entries| - 1] == Drop(c.entries, k)
  {
    match Find(c.entries, k)
    case None => (None, c)
    case Some(i) =>
      var e := c.entries[i];
      var w := Without(c.entries, i);
      WithoutMultiset(c.entries, i);
      assert (w + [e])[..|w|] == w;
      (Some(e.value), c.(entries := w + [e]))
  }

  /** Putting the entry at position `i` back at the end keeps the multiset of entries. */
  lemma WithoutMultiset<K, V>(es: seq<Entry<K, V>>, i: nat)
    requires i < |es|
    ensures multiset(Without(es, i) + [es[i]]) == multiset(es)
  {
    assert es == es[..i] + [es[i]] + es[i + 1..];
  }

  /** The entries without the one stored under `k`, if any. */
  function Drop<K(==), V>(es: seq<Entry<K, V>>, k: K): seq<Entry<K, V>>
  {
    match Find(es, k)
    case None => es
    case Some(i) => Without(es, i)
  }

  /**
    `cache.set(k, v, ttl)`: drops the old entry of `k`, evicts the least
    recently used entry when the cache is still full, and stores `k` as the
    most recent entry. `ttl` is not used.
   */
  function Set<K(==), V>(c: Cache<K, V>, k: K, v: V, ttl: int): (r: Cache<K, V>)
    requires Valid(c)
    ensures Valid(r)
    ensures r.maxItems == c.maxItems
    ensures |r.entries| > 0 && r.entries[|r.entries| - 1] == Entry(k, v)
    ensures forall e :: e in r.entries && e != Entry(k, v) ==> e in c.entries && e.key != k
    ensures k in Keys(c.entries) ==> r.entries == Drop(c.entries, k) + [Entry(k, v)]
    ensures k in Keys(c.entries) ==> |r.entries| == |c.entries|
    ensures k !in Keys(c.entries) && |c.entries| < c.maxItems ==> r.entries == c.entries + [Entry(k, v)]
    ensures k !in Keys(c.entries) && |c.entries| == c.maxItems ==> r.entries == c.entries[1..] + [Entry(k, v)]
  {
    var kept := Drop(c.entries, k);
    DropFacts(c.entries, k);
    var room := if |kept| >= c.maxItems then kept[1..] else kept;
    assert DistinctKeys(room) && k !in Keys(room) by {
      if |kept| >= c.maxItems {
        TailFacts(kept);
      }
    }
    AppendFacts(room, Entry(k, v));
    c.(entries := room + [Entry(k, v)])
  }

  lemma WithoutFacts<K, V>(es: seq<Entry<K, V>>, i: nat)
    requires i < |es| && DistinctKeys(es)
    ensures DistinctKeys(Without(es, i))
    ensures forall e :: e in Without(es, i) <==> e in es && e.key != es[i].key
  {
    var w := Without(es, i);
    assert forall j :: 0 <= j < |w| ==> w[j] == if j < i then es[j] else es[j + 1];
    forall e | e in es && e.key != es[i].key
      ensures e in w
    {
      var j :| 0 <= j < |es| && es[j] == e;
      if j < i { assert w[j] == e; } else { assert j > i; assert w[j - 1] == e; }
    }
  }

  lemma DropFacts<K, V>(es: seq<Entry<K, V>>, k: K)
    requires DistinctKeys(es)
    ensures DistinctKeys(Drop(es, k))
    ensures k !in Keys(Drop(es, k))
    ensures forall e :: e in Drop(es, k) <==> e in es && e.key != k
    ensures k in Keys(es) ==> |Drop(es, k)| == |es| - 1
    ensures k !in Keys(es) ==> Drop(es, k) == es
  {
    match Find(es, k)
    case None =>
      forall e | e in es
        ensures e.key != k
      {
        var j :| 0 <= j < |es| && es[j] == e;
        assert Keys(es)[j] == e.key;
      }
    case Some(i) =>
      WithoutFacts(es, i);
      var w := Without(es, i);
      forall j | 0 <= j < |w|
        ensures Keys(w)[j] != k
      {
        assert w[j] in w;
      }
      assert Keys(es)[i] == k;
  }

  lemma TailFacts<K, V>(es: seq<Entry<K, V>>)
    requires |es| > 0 && DistinctKeys(es)
    ensures DistinctKeys(es[1..])
    ensures forall e :: e in es[1..] <==> e in es && e != es[0]
  {
    forall e | e in es && e != es[0]
      ensures e in es[1..]
    {
      var j :| 0 <= j < |es| && es[j] == e;
      assert es[1..][j - 1] == e;
    }
  }

  lemma AppendFacts<K, V>(es: seq<Entry<K, V>>, e: Entry<K, V>)
    requires DistinctKeys(es) && e.key !in Keys(es)
    ensures DistinctKeys(es + [e])
  {
  }

  /** Under distinct keys, `Lookup` finds exactly the stored entries. */
  lemma {:induction false} LookupMember<K, V>(es: seq<Entry<K, V>>, k: K, v: V)
    requires DistinctKeys(es)
    ensures Lookup(es, k) == Some(v) <==> Entry(k, v) in es
  {
    if es != [] {
      assert DistinctKeys(es[1..]);
      LookupMember(es[1..], k, v);
    }
  }

  /** `Lookup` fails exactly when no entry carries the key. */
  lemma {:induction false} LookupAbsent<K, V>(es: seq<Entry<K, V>>, k: K)
    ensures Lookup(es, k).None? <==> forall e :: e in es ==> e.key != k
  {
    if es != [] {
      LookupAbsent(es[1..], k);
      assert forall e :: e in es <==> e == es[0] || e in es[1..];
    }
  }

  /** Two stores with distinct keys that hold the same entries for `k` agree on `k`. */
  lemma LookupAgree<K, V>(a: seq<Entry<K, V>>, b: seq<Entry<K, V>>, k: K)
    requires DistinctKeys(a) && DistinctKeys(b)
    requires forall e: Entry<K, V> :: e.key == k ==> (e in a <==> e in b)
    ensures Lookup(a, k) == Lookup(b, k)
  {
    LookupAbsent(a, k);
    LookupAbsent(b, k);
    if Lookup(a, k).Some? {
      LookupMember(a, k, Lookup(a, k).value);
      LookupMember(b, k, Lookup(a, k).value);
    }
  }

  /**
    `get` returns the value stored under the key, keeps the cache valid and
    keeps every key's value: it only reorders.
   */
  lemma GetKeepsMapping<K, V>(c: Cache<K, V>, k: K, k': K)
    requires Valid(c)
    ensures Get(c, k).0 == Lookup(c.entries, k)
    ensures Valid(Get(c, k).1)
    ensures Lookup(Get(c, k).1.entries, k') == Lookup(c.entries, k')
  {
    var r := Get(c, k);
    LookupAbsent(c.entries, k);
    if r.0.Some? {
      LookupMember(c.entries, k, r.0.value);
      var kept := Drop(c.entries, k);
      DropFacts(c.entries, k);
      assert r.1.entries == kept + [Entry(k, r.0.value)];
      AppendFacts(kept, Entry(k, r.0.value));
      assert forall e :: e in r.1.entries <==> e in multiset(r.1.entries);
      assert forall e :: e in c.entries <==> e in multiset(c.entries);
      LookupAgree(r.1.entries, c.entries, k');
    } else {
      assert k !in Keys(c.entries);
    }
  }

  /** `set` would evict: the key is new and the cache is full. */
  ghost predicate Evicts<K, V>(c: Cache<K, V>, k: K) {
    k !in Keys(c.entries) && |c.entries| == c.maxItems
  }

  /**
    The entries after `set(k, v, ttl)`: the new entry, and every old entry of
    another key except the least recently used one when `set` evicts.
   */
  lemma SetEntries<K, V>(c: Cache<K, V>, k: K, v: V, ttl: int)
    requires Valid(c)
    ensures forall e :: e in Set(c, k, v, ttl).entries <==>
      e == Entry(k, v) || (e in c.entries && e.key != k && !(Evicts(c, k) && e == c.entries[0]))
  {
    var r := Set(c, k, v, ttl);
    DropFacts(c.entries, k);
    if Evicts(c, k) {
      TailFacts(c.entries);
    } else if k !in Keys(c.entries) {
      assert r.entries == c.entries + [Entry(k, v)];
    } else {
      var kept := Drop(c.entries, k);
      assert |kept| < c.maxItems;
      assert r.entries == kept + [Entry(k, v)];
    }
  }

  /** After `set(k, v, ttl)`, `get(k)` returns `v`, whatever `ttl` was. */
  lemma SetThenGet<K, V>(c: Cache<K, V>, k: K, v: V, ttl: int)
    requires Valid(c)
    ensures Get(Set(c, k, v, ttl), k).0 == Some(v)
  {
    var r := Set(c, k, v, ttl);
    LookupMember(r.entries, k, v);
    GetKeepsMapping(r, k, k);
  }

  /** `set` keeps the value of every other key that it does not evict. */
  lemma SetKeepsOthers<K, V>(c: Cache<K, V>, k: K, v: V, ttl: int, k': K)
    requires Valid(c)
    requires k' != k
    requires !(Evicts(c, k) && k' == c.entries[0].key)
    ensures Lookup(Set(c, k, v, ttl).entries, k') == Lookup(c.entries, k')
  {
    SetEntries(c, k, v, ttl);
    LookupAgree(Set(c, k, v, ttl).entries, c.entries, k');
  }

  /** The key `set` evicts is gone afterwards. */
  lemma SetEvictsOldest<K, V>(c: Cache<K, V>, k: K, v: V, ttl: int)
    requires Valid(c) && Evicts(c, k)
    ensures Lookup(Set(c, k, v, ttl).entries, c.entries[0].key).None?
    ensures |Set(c, k, v, ttl).entries| == c.maxItems
  {
    var old0 := c.entries[0];
    var r := Set(c, k, v, ttl);
    SetEntries(c, k, v, ttl);
    forall e | e in r.entries
      ensures e.key != old0.key
    {
      if e != Entry(k, v) {
        var j :| 0 <= j < |c.entries| && c.entries[j] == e;
        assert j != 0;
      } else {
        assert Keys(c.entries)[0] == old0.key;
      }
    }
    LookupAbsent(r.entries, old0.key);
  }

  /** The `ttl` argument has no effect on `set`. */
  lemma SetIgnoresTtl<K, V>(c: Cache<K, V>, k: K, v: V, ttl1: int, ttl2: int)
    requires Valid(c)
    ensures Set(c, k, v, ttl1) == Set(c, k, v, ttl2)
  {
  }
}

=== FILE: prompts.dfy ===
/**
  The compliance prompt templates of `web-app/src/lib/prompts.ts`: the
  analyse prompt embeds the policy PDF text truncated to 15000 characters,
  and the refine prompt embeds the truncated text, the previous actions as a
  numbered list and the analyst's feedback between double quotes.
 */
module Prompts {
  import opened Text
  import Js

  /** The number of PDF characters a prompt keeps. */
  const PdfLimit: int := 15000

  /** `pdfText.slice(0, 15000)`. */
  function Truncate(pdf: string): (t: string)
    ensures |t| <= PdfLimit
    ensures |pdf| <= PdfLimit ==> t == pdf
    ensures |pdf| > PdfLimit ==> t == pdf[..PdfLimit]
  {
    Js.SlicePrefix(pdf, PdfLimit);
    Js.Slice(pdf, 0, PdfLimit)
  }

  /** The text of `ANALYZE_USER` before the PDF content. */
  const AnalyzeHead: string := "\nPDF CONTENT (truncated to fit model):\n\"\"\"\n"

  /** The text of `ANALYZE_USER` after the PDF content. */
  const AnalyzeTail: string :=
    "\n\"\"\"\n\nReturn JSON with:\n{\n"
    + "  \"summary\": \"2-6 bullet points (1-2 lines each) summarizing key compliance rules\",\n"
    + "  \"suggested_actions\": [\n"
    + "    \"Action 1 (clear, testable)\",\n"
    + "    \"Action 2\",\n"
    + "    \"Action 3\"\n"
    + "  ]\n}\n"

  /**
    `ANALYZE_USER(pdfText)`: the truncated PDF text sits between the fixed
    head and tail and reads back from between them.
   */
  function AnalyzeUser(pdf: string): (p: string)
    ensures |p| == |AnalyzeHead| + |Truncate(pdf)| + |AnalyzeTail|
    ensures p[..|AnalyzeHead|] == AnalyzeHead
    ensures p[|AnalyzeHead|..|p| - |AnalyzeTail|] == Truncate(pdf)
    ensures p[|p| - |AnalyzeTail|..] == AnalyzeTail
  {
    Frame(AnalyzeHead, Truncate(pdf), AnalyzeTail);
    AnalyzeHead + Truncate(pdf) + AnalyzeTail
  }

  /**
    The analyse prompt is the fixed frame around the first `min(15000, |pdf|)`
    characters of the PDF, which can be read back from between the frame's
    two halves.
   */
  lemma AnalyzeEmbedsPdf(pdf: string)
    ensures var p := AnalyzeUser(pdf); var n := if |pdf| <= PdfLimit then |pdf| else PdfLimit;
      && |p| == |AnalyzeHead| + n + |AnalyzeTail|
      && p[..|AnalyzeHead|] == AnalyzeHead
      && p[|AnalyzeHead|..|AnalyzeHead| + n] == pdf[..n]
      && p[|AnalyzeHead| + n..] == AnalyzeTail
  {
    var t := Truncate(pdf);
    Frame(AnalyzeHead, t, AnalyzeTail);
  }

  /** A string framed by a head and a tail can be cut back into its three pieces. */
  lemma Frame(head: string, body: string, tail: string)
    ensures var s := head + body + tail;
      && s[..|head|] == head
      && s[|head|..|head| + |body|] == body
      && s[|head| + |body|..] == tail
  {
  }

  /** Two PDFs that agree on their first 15000 characters give the same analyse prompt. */
  lemma AnalyzeOnlySeesPrefix(a: string, b: string)
    requires |a| >= PdfLimit && |b| >= PdfLimit && a[..PdfLimit] == b[..PdfLimit]
    ensures AnalyzeUser(a) == AnalyzeUser(b)
  {
  }

  /** The list line of action `a` at zero-based position `i`: `${i + 1}. ${a}`. */
  function NumberedLine(i: nat, a: string): (line: string)
    ensures |line| > 2 + |a|
    ensures line[|line| - |a|..] == a
  {
    NatToString(i + 1) + ". " + a
  }

  /** The list lines, numbered from 1. */
  function NumberedLines(actions: seq<string>): (lines: seq<string>)
    ensures |lines| == |actions|
    ensures forall i :: 0 <= i < |actions| ==> lines[i] == NumberedLine(i, actions[i])
  {
    seq(|actions|, i requires 0 <= i < |actions| => NumberedLine(i, actions[i]))
  }

  /**
    `previousActions.map((a, i) => `${i + 1}. ${a}`).join("\n")`: empty for no
    actions; otherwise it starts with the line of the first action, ends with
    the last action verbatim, and adds one line break between lines.
   */
  function NumberedList(actions: seq<string>): (list: string)
    ensures |actions| == 0 ==> list == ""
    ensures |actions| >= 1 ==> NumberedLine(0, actions[0]) <= list
    ensures |actions| >= 1 ==> var last := actions[|actions| - 1];
      |last| <= |list| && list[|list| - |last|..] == last
    ensures |actions| >= 1 ==> |list| == TotalLength(NumberedLines(actions)) + |actions| - 1
  {
    var lines := NumberedLines(actions);
    if |actions| >= 1 then
      JoinEnds("\n", lines);
      JoinLength("\n", lines);
      var n := |actions| - 1;
      assert lines[n][|lines[n]| - |actions[n]|..] == actions[n];
      Join("\n", lines)
    else
      Join("\n", lines)
  }

  /** No previous actions give an empty list. */
  lemma EmptyList()
    ensures NumberedList([]) == ""
  {
  }

  /**
    A list line reads back to its number and its action: the digits before
    `". "` denote `i + 1` and the rest is the action verbatim.
   */
  lemma {:induction false} ReadLine(i: nat, a: string)
    ensures var line := NumberedLine(i, a); var d := |NatToString(i + 1)|;
      && d + 2 <= |line|
      && (forall k :: 0 <= k < d ==> IsDigit(line[k]))
      && DigitsValue(line[..d]) == i + 1
      && line[d..d + 2] == ". "
      && line[d + 2..] == a
  {
    var line := NumberedLine(i, a);
    var d := |NatToString(i + 1)|;
    assert line[..d] == NatToString(i + 1);
    NatToStringRoundTrip(i + 1);
  }

  /** A list line holds a line break only where its action does. */
  lemma LineBreaks(i: nat, a: string)
    ensures '\n' in NumberedLine(i, a) <==> '\n' in a
  {
    var n := NatToString(i + 1);
    var line := NumberedLine(i, a);
    assert line == n + (". " + a);
    if '\n' in line {
      var k :| 0 <= k < |line| && line[k] == '\n';
      if k >= |n| + 2 {
        assert a[k - |n| - 2] == '\n';
      }
    }
    if '\n' in a {
      var k :| 0 <= k < |a| && a[k] == '\n';
      assert line[|n| + 2 + k] == '\n';
    }
  }

  /**
    When no action holds a line break, splitting a non-empty list on line
    breaks gives one line per action, in order, each reading back to its
    action.
   */
  lemma SplitList(actions: seq<string>)
    requires |actions| >= 1
    requires forall i :: 0 <= i < |actions| ==> '\n' !in actions[i]
    ensures Split(NumberedList(actions), '\n') == NumberedLines(actions)
    ensures forall i :: 0 <= i < |actions| ==>
      NumberedLines(actions)[i][|NatToString(i + 1)| + 2..] == actions[i]
  {
    var lines := NumberedLines(actions);
    forall i | 0 <= i < |lines|
      ensures '\n' !in lines[i]
    {
      LineBreaks(i, actions[i]);
    }
    SplitJoin(lines, '\n');
    assert NumberedList(actions) == Join("\n", lines);
    forall i | 0 <= i < |actions|
      ensures lines[i][|NatToString(i + 1)| + 2..] == actions[i]
    {
      ReadLine(i, actions[i]);
    }
  }

  /** The text of `REFINE_USER` before the PDF context. */
  const RefineHead: string := "\nPDF CONTEXT (truncated):\n\"\"\"\n"

  /** The text of `REFINE_USER` between the PDF context and the list. */
  const RefineListHead: string := "\n\"\"\"\n\nPREVIOUS SUGGESTED ACTIONS:\n"

  /** The text of `REFINE_USER` between the list and the feedback, up to its opening quote. */
  const RefineFeedbackHead: string := "\n\nANALYST FEEDBACK:\n\""

  /** The text of `REFINE_USER` after the feedback, from its closing quote. */
  const RefineTail: string :=
    "\"\n\nReturn JSON with:\n{\n"
    + "  \"improved_actions\": [\n"
    + "    \"Revised Action 1\",\n"
    + "    \"Revised Action 2\"\n"
    + "  ]\n}\n"

  /** The fixed text and the list between the PDF context and the feedback. */
  function RefineMiddle(previousActions: seq<string>): string {
    RefineListHead + NumberedList(previousActions) + RefineFeedbackHead
  }

  /**
    `REFINE_USER({ pdfText, previousActions, feedback })`: the fixed head and
    the truncated PDF text come first, then exactly the list block with its
    two headings, then the feedback verbatim followed by the fixed tail.
   */
  function RefineUser(pdf: string, previousActions: seq<string>, feedback: string): (p: string)
    ensures |p| == |RefineHead| + |Truncate(pdf)| + |RefineMiddle(previousActions)| + |feedback| + |RefineTail|
    ensures p[..|RefineHead|] == RefineHead
    ensures p[|RefineHead|..|RefineHead| + |Truncate(pdf)|] == Truncate(pdf)
    ensures p[|RefineHead| + |Truncate(pdf)|..|p| - |RefineTail| - |feedback|] == RefineMiddle(previousActions)
    ensures p[|p| - |RefineTail| - |feedback|..|p| - |RefineTail|] == feedback
    ensures p[|p| - |RefineTail|..] == RefineTail
  {
    var t := Truncate(pdf);
    var middle := RefineMiddle(previousActions);
    FivePieces(RefineHead, t, middle, feedback, RefineTail);
    Regroup(RefineHead, t, middle, feedback, RefineTail);
    Frame(RefineHead + t, middle, feedback + RefineTail);
    RefineHead + t + middle + feedback + RefineTail
  }

  /** The pieces of a five-part concatenation, read back from its two ends. */
  lemma FivePieces(head: string, body: string, middle: string, quoted: string, tail: string)
    requires |middle| > 0
    ensures var s := head + body + middle + quoted + tail;
      var f := |s| - |tail| - |quoted|;
      && |s| == |head| + |body| + |middle| + |quoted| + |tail|
      && s[..|head|] == head
      && s[|head|..|head| + |body|] == body
      && s[f - 1] == middle[|middle| - 1]
      && s[f..f + |quoted|] == quoted
      && s[f + |quoted|..] == tail
  {
    var s := head + body + middle + quoted + tail;
    var before := head + body + middle;
    assert s == before + quoted + tail;
    assert s[..|head|] == before[..|head|];
    assert s[|head|..|head| + |body|] == before[|head|..|head| + |body|];
  }

  /**
    The refine prompt starts with the truncated PDF right after its fixed
    head, and ends with the feedback verbatim between double quotes followed
    by the fixed tail, whatever the feedback contains.
   */
  lemma RefineEmbedsInputs(pdf: string, previousActions: seq<string>, feedback: string)
    ensures var p := RefineUser(pdf, previousActions, feedback);
      var n := if |pdf| <= PdfLimit then |pdf| else PdfLimit;
      var f := |p| - |RefineTail| - |feedback|;
      && |RefineHead| + n + 1 <= f
      && p[..|RefineHead|] == RefineHead
      && p[|RefineHead|..|RefineHead| + n] == pdf[..n]
      && p[f - 1] == '"'
      && p[f..f + |feedback|] == feedback
      && p[f + |feedback|..] == RefineTail
      && RefineTail[0] == '"'
  {
    var middle := RefineMiddle(previousActions);
    assert middle[|middle| - 1] == RefineFeedbackHead[|RefineFeedbackHead| - 1] == '"';
    FivePieces(RefineHead, Truncate(pdf), middle, feedback, RefineTail);
  }

  /** The list of previous actions sits in the refine prompt between its two fixed headings. */
  lemma RefineEmbedsList(pdf: string, previousActions: seq<string>, feedback: string)
    ensures Contains(RefineUser(pdf, previousActions, feedback), RefineMiddle(previousActions))
  {
    var t := Truncate(pdf);
    var middle := RefineMiddle(previousActions);
    Regroup(RefineHead, t, middle, feedback, RefineTail);
    ContainsPiece(RefineHead + t, middle, feedback + RefineTail);
  }

  /** A five-part concatenation read as the middle part between two pairs. */
  lemma Regroup(a: string, b: string, c: string, d: string, e: string)
    ensures a + b + c + d + e == (a + b) + c + (d + e)
  {
  }
}

=== FILE: stress.dfy ===
/**
  The stress test of `web-app/src/app/portfolio/page.tsx`
  (`getStressTestResults`, `getScenarioColor`): base metrics scaled
  linearly into a market-drop, a rate-hike and a combined scenario. The
  sliders feeding it step from integer minimums by integer steps, so both
  shocks are integers.
 */
module Stress {
  import opened Text

  datatype StressMetrics = StressMetrics(
    dailyReturns: real, portfolioPrice: real, volatility: real,
    trackingError: real, cumulativeReturns: real)

  datatype Scenario = Scenario(name: string, metrics: StressMetrics)

  datatype PortfolioId = GlobalEquity | AsianBond

  datatype Color = Green | Red | Yellow

  /** `portfolioMetrics`, the base metrics of the two funds. */
  function BaseMetrics(id: PortfolioId): StressMetrics {
    match id
    case GlobalEquity => StressMetrics(0.23, 2450000000.0, 8.2, 1.5, 18.7)
    case AsianBond => StressMetrics(0.15, 1850000000.0, 5.1, 2.1, 12.3)
  }

  /** The slider ranges: market drop 5..50 percent, rate hike 50..500 basis points. */
  const MarketDropMin: int := 5
  const MarketDropMax: int := 50
  const RateHikeMin: int := 50
  const RateHikeMax: int := 500

  function MarketDropFactor(marketDrop: int): real { marketDrop as real / 50.0 }
  function RateHikeFactor(rateHike: int): real { rateHike as real / 500.0 }

  /** The price multiplier of the market-drop shock with factor `f`. */
  function DropMultiplier(f: real): real { 1.0 - f * 0.15 }

  /** The price multiplier of the rate-hike shock with factor `g`. */
  function HikeMultiplier(g: real): real { 1.0 - g * 0.05 }

  function MarketDropRow(base: StressMetrics, f: real): StressMetrics {
    StressMetrics(
      base.dailyReturns - f * 0.5,
      base.portfolioPrice * DropMultiplier(f),
      base.volatility + f * 4.0,
      base.trackingError + f * 1.0,
      base.cumulativeReturns - f * 8.0)
  }

  function RateHikeRow(base: StressMetrics, g: real): StressMetrics {
    StressMetrics(
      base.dailyReturns - g * 0.2,
      base.portfolioPrice * HikeMultiplier(g),
      base.volatility + g * 2.0,
      base.trackingError + g * 0.5,
      base.cumulativeReturns - g * 3.0)
  }

  function CombinedRow(base: StressMetrics, f: real, g: real): StressMetrics {
    StressMetrics(
      base.dailyReturns - (f * 0.5 + g * 0.2),
      base.portfolioPrice * DropMultiplier(f) * HikeMultiplier(g),
      base.volatility + (f * 4.0 + g * 2.0),
      base.trackingError + (f * 1.0 + g * 0.5),
      base.cumulativeReturns - (f * 8.0 + g * 3.0))
  }

  function MarketDropName(marketDrop: int): string { "Market Drop " + IntToString(marketDrop) + "%" }
  function RateHikeName(rateHike: int): string { "Rate Hike " + IntToString(rateHike) + "bps" }

  /** `getStressTestResults(id, marketDrop, rateHike)`. */
  function StressTestResults(id: PortfolioId, marketDrop: int, rateHike: int): (rows: seq<Scenario>)
    ensures |rows| == 4
    ensures rows[0] == Scenario("Base Case", BaseMetrics(id))
    ensures rows[1].name == MarketDropName(marketDrop)
    ensures rows[2].name == RateHikeName(rateHike)
    ensures rows[3].name == "Combined Stress"
  {
    var base := BaseMetrics(id);
    var f := MarketDropFactor(marketDrop);
    var g := RateHikeFactor(rateHike);
    [
      Scenario("Base Case", base),
      Scenario(MarketDropName(marketDrop), MarketDropRow(base, f)),
      Scenario(RateHikeName(rateHike), RateHikeRow(base, g)),
      Scenario("Combined Stress", CombinedRow(base, f, g))
    ]
  }

  /**
    How a combined row `c` relates to the base row `b` and the two single-shock
    rows `md` and `rh`: every additive metric moves from the base by the sum of
    the two single-shock moves, and the price is the base price scaled by the
    market-drop multiplier `dm`, the rate-hike multiplier `hm` and both.
   */
  ghost predicate CombinesShocks(b: StressMetrics, md: StressMetrics, rh: StressMetrics, c: StressMetrics,
                                 dm: real, hm: real) {
    && c.dailyReturns - b.dailyReturns == (md.dailyReturns - b.dailyReturns) + (rh.dailyReturns - b.dailyReturns)
    && c.volatility - b.volatility == (md.volatility - b.volatility) + (rh.volatility - b.volatility)
    && c.trackingError - b.trackingError == (md.trackingError - b.trackingError) + (rh.trackingError - b.trackingError)
    && c.cumulativeReturns - b.cumulativeReturns
       == (md.cumulativeReturns - b.cumulativeReturns) + (rh.cumulativeReturns - b.cumulativeReturns)
    && md.portfolioPrice == b.portfolioPrice * dm
    && rh.portfolioPrice == b.portfolioPrice * hm
    && c.portfolioPrice == b.portfolioPrice * dm * hm
  }

  /** The row builders combine the two shocks for any base and any factors. */
  lemma CombinedRowIsSumOfShocks(base: StressMetrics, f: real, g: real)
    ensures CombinesShocks(base, MarketDropRow(base, f), RateHikeRow(base, g), CombinedRow(base, f, g),
                           DropMultiplier(f), HikeMultiplier(g))
  {
  }

  /**
    The same, read off the table the stress test returns: the combined row
    combines the market-drop and rate-hike rows over the base row.
   */
  lemma CombinedIsSumOfShocks(id: PortfolioId, marketDrop: int, rateHike: int)
    ensures var rows := StressTestResults(id, marketDrop, rateHike);
      CombinesShocks(rows[0].metrics, rows[1].metrics, rows[2].metrics, rows[3].metrics,
                     DropMultiplier(MarketDropFactor(marketDrop)), HikeMultiplier(RateHikeFactor(rateHike)))
  {
    var base, f, g := BaseMetrics(id), MarketDropFactor(marketDrop), RateHikeFactor(rateHike);
    var rows := StressTestResults(id, marketDrop, rateHike);
    assert rows[0].metrics == base && rows[1].metrics == MarketDropRow(base, f);
    assert rows[2].metrics == RateHikeRow(base, g) && rows[3].metrics == CombinedRow(base, f, g);
    CombinedRowIsSumOfShocks(base, f, g);
  }

  /** Stress rows worsen a metric set: volatility and tracking error rise, returns fall. */
  ghost predicate NoBetter(s: StressMetrics, base: StressMetrics) {
    && s.volatility >= base.volatility
    && s.trackingError >= base.trackingError
    && s.dailyReturns <= base.dailyReturns
    && s.cumulativeReturns <= base.cumulativeReturns
  }

  /** Non-negative shocks never improve a risk metric. */
  lemma ShocksWorsenMetrics(id: PortfolioId, marketDrop: int, rateHike: int)
    requires marketDrop >= 0 && rateHike >= 0
    ensures var rows := StressTestResults(id, marketDrop, rateHike);
      && NoBetter(rows[1].metrics, rows[0].metrics)
      && NoBetter(rows[2].metrics, rows[0].metrics)
      && NoBetter(rows[3].metrics, rows[0].metrics)
  {
  }

  /** Within the slider ranges both price multipliers lie in (0, 1]. */
  lemma MultipliersInRange(marketDrop: int, rateHike: int)
    requires MarketDropMin <= marketDrop <= MarketDropMax
    requires RateHikeMin <= rateHike <= RateHikeMax
    ensures 0.0 < DropMultiplier(MarketDropFactor(marketDrop)) <= 1.0
    ensures 0.0 < HikeMultiplier(RateHikeFactor(rateHike)) <= 1.0
  {
  }

  /** Scaling a positive amount by a factor in (0, 1] keeps it positive and no larger. */
  lemma ScaleDown(p: real, a: real, x: real)
    requires p > 0.0 && 0.0 < a <= 1.0 && x == p * a
    ensures 0.0 < x <= p
  {
    assert p * a <= p * 1.0;
  }

  /** Multipliers in (0, 1] keep every stressed price positive and at most the base price. */
  lemma RowPricesBounded(base: StressMetrics, f: real, g: real)
    requires base.portfolioPrice > 0.0
    requires 0.0 < DropMultiplier(f) <= 1.0 && 0.0 < HikeMultiplier(g) <= 1.0
    ensures 0.0 < MarketDropRow(base, f).portfolioPrice <= base.portfolioPrice
    ensures 0.0 < RateHikeRow(base, g).portfolioPrice <= base.portfolioPrice
    ensures 0.0 < CombinedRow(base, f, g).portfolioPrice <= base.portfolioPrice
  {
    var p, a, b := base.portfolioPrice, DropMultiplier(f), HikeMultiplier(g);
    ScaleDown(p, a, MarketDropRow(base, f).portfolioPrice);
    ScaleDown(p, b, RateHikeRow(base, g).portfolioPrice);
    ScaleDown(p * a, b, CombinedRow(base, f, g).portfolioPrice);
  }

  /** Within the slider ranges every stressed price stays positive and at most the base price. */
  lemma StressedPricesBounded(id: PortfolioId, marketDrop: int, rateHike: int)
    requires MarketDropMin <= marketDrop <= MarketDropMax
    requires RateHikeMin <= rateHike <= RateHikeMax
    ensures var rows := StressTestResults(id, marketDrop, rateHike);
      && 0.0 < rows[1].metrics.portfolioPrice <= rows[0].metrics.portfolioPrice
      && 0.0 < rows[2].metrics.portfolioPrice <= rows[0].metrics.portfolioPrice
      && 0.0 < rows[3].metrics.portfolioPrice <= rows[0].metrics.portfolioPrice
  {
    MultipliersInRange(marketDrop, rateHike);
    RowPricesBounded(BaseMetrics(id), MarketDropFactor(marketDrop), RateHikeFactor(rateHike));
  }

  /** `getScenarioColor(name)`. */
  function ScenarioColor(name: string): (c: Color)
    ensures c == Green <==> Contains(name, "Base")
    ensures c == Red <==> !Contains(name, "Base") && Contains(name, "Combined")
  {
    if Contains(name, "Base") then Green
    else if Contains(name, "Combined") then Red
    else Yellow
  }

  /** A rendered integer holds no letter. */
  lemma IntHasNoLetter(i: int, ch: char)
    requires !IsDigit(ch) && ch != '-'
    ensures ch !in IntToString(i)
  {
  }

  /** The single-shock rows are coloured yellow: their names hold neither `B` nor `C`. */
  lemma ShockRowsAreYellow(marketDrop: int, rateHike: int)
    ensures ScenarioColor(MarketDropName(marketDrop)) == Yellow
    ensures ScenarioColor(RateHikeName(rateHike)) == Yellow
  {
    IntHasNoLetter(marketDrop, 'B');
    IntHasNoLetter(marketDrop, 'C');
    IntHasNoLetter(rateHike, 'B');
    IntHasNoLetter(rateHike, 'C');
    NotContainsWithoutFirstChar(MarketDropName(marketDrop), "Base");
    NotContainsWithoutFirstChar(MarketDropName(marketDrop), "Combined");
    NotContainsWithoutFirstChar(RateHikeName(rateHike), "Base");
    NotContainsWithoutFirstChar(RateHikeName(rateHike), "Combined");
  }

  /** The four rows are coloured green, yellow, yellow and red. */
  lemma RowColors(id: PortfolioId, marketDrop: int, rateHike: int)
    ensures var rows := StressTestResults(id, marketDrop, rateHike);
      && ScenarioColor(rows[0].name) == Green
      && ScenarioColor(rows[1].name) == Yellow
      && ScenarioColor(rows[2].name) == Yellow
      && ScenarioColor(rows[3].name) == Red
  {
    ContainsPiece("", "Base", " Case");
    assert "Base Case" == "" + "Base" + " Case";
    ContainsPiece("", "Combined", " Stress");
    assert "Combined Stress" == "" + "Combined" + " Stress";
    NotContainsWithoutFirstChar("Combined Stress", "Base");
    ShockRowsAreYellow(marketDrop, rateHike);
  }
}

=== FILE: text.dfy ===
/**
  String helpers shared by the model: Python's `sep.join`/`str.split`,
  JavaScript's `Array.prototype.join`, the decimal rendering of integers that
  template literals and `str()` perform, and substring search
  (`String.prototype.includes`).
 */
module Text {

  /** `sep.join(parts)` in Python, `parts.join(sep)` in JavaScript. */
  function Join(sep: string, parts: seq<string>): string
    decreases |parts|
  {
    if |parts| == 0 then ""
    else if |parts| == 1 then parts[0]
    else parts[0] + sep + Join(sep, parts[1..])
  }

  /** Python's `s.split(c)` for a one-character separator: every occurrence cuts. */
  function Split(s: string, c: char): (parts: seq<string>)
    ensures |parts| >= 1
  {
    if s == [] then [""]
    else
      var rest := Split(s[1..], c);
      if s[0] == c then [""] + rest
      else [[s[0]] + rest[0]] + rest[1..]
  }

  /** The total length of `parts`. */
  function TotalLength(parts: seq<string>): nat
  {
    if parts == [] then 0 else |parts[0]| + TotalLength(parts[1..])
  }

  /** Joining `k >= 1` parts adds `k - 1` separators to their total length. */
  lemma {:induction false} JoinLength(sep: string, parts: seq<string>)
    requires |parts| >= 1
    ensures |Join(sep, parts)| == TotalLength(parts) + (|parts| - 1) * |sep|
    decreases |parts|
  {
    if |parts| > 1 {
      JoinLength(sep, parts[1..]);
    }
  }

  /** A non-empty join starts with its first part and ends with its last. */
  lemma {:induction false} JoinEnds(sep: string, parts: seq<string>)
    requires |parts| >= 1
    ensures var j := Join(sep, parts); var last := parts[|parts| - 1];
      && parts[0] <= j
      && |last| <= |j| && j[|j| - |last|..] == last
    decreases |parts|
  {
    if |parts| > 1 {
      JoinEnds(sep, parts[1..]);
      var rest := Join(sep, parts[1..]);
      assert Join(sep, parts) == (parts[0] + sep) + rest;
    }
  }

  /** A piece without the separator splits to itself. */
  lemma {:induction false} SplitNoSeparator(p: string, c: char)
    requires c !in p
    ensures Split(p, c) == [p]
    decreases |p|
  {
    if p != [] {
      SplitNoSeparator(p[1..], c);
      assert [p[0]] + p[1..] == p;
    }
  }

  /** Splitting stops at the first separator. */
  lemma {:induction false} SplitFirst(p: string, c: char, q: string)
    requires c !in p
    ensures Split(p + [c] + q, c) == [p] + Split(q, c)
    decreases |p|
  {
    var s := p + [c] + q;
    if p == [] {
      assert s[1..] == q;
    } else {
      assert s[1..] == p[1..] + [c] + q;
      SplitFirst(p[1..], c, q);
      assert [p[0]] + p[1..] == p;
    }
  }

  /** Splitting a join on a separator no part contains gives the parts back. */
  lemma {:induction false} SplitJoin(parts: seq<string>, c: char)
    requires |parts| >= 1
    requires forall i :: 0 <= i < |parts| ==> c !in parts[i]
    ensures Split(Join([c], parts), c) == parts
    decreases |parts|
  {
    if |parts| == 1 {
      SplitNoSeparator(parts[0], c);
    } else {
      SplitJoin(parts[1..], c);
      SplitFirst(parts[0], c, Join([c], parts[1..]));
      assert [parts[0]] + parts[1..] == parts;
    }
  }

  predicate IsDigit(ch: char) {
    '0' <= ch <= '9'
  }

  function DigitChar(d: nat): (ch: char)
    requires d < 10
    ensures IsDigit(ch)
  {
    "0123456789"[d]
  }

  function DigitValue(ch: char): (d: nat)
    requires IsDigit(ch)
    ensures d < 10
  {
    (ch - '0') as nat
  }

  /** The decimal rendering of a natural number, without leading zeros. */
  function NatToString(n: nat): (s: string)
    ensures |s| >= 1
    ensures forall i :: 0 <= i < |s| ==> IsDigit(s[i])
    ensures |s| > 1 ==> s[0] != '0'
    decreases n
  {
    if n < 10 then [DigitChar(n)] else NatToString(n / 10) + [DigitChar(n % 10)]
  }

  /** The number a string of decimal digits denotes. */
  function DigitsValue(s: string): nat
    requires forall i :: 0 <= i < |s| ==> IsDigit(s[i])
  {
    if s == [] then 0 else 10 * DigitsValue(s[..|s| - 1]) + DigitValue(s[|s| - 1])
  }

  /** Reading back the rendering of `n` gives `n`. */
  lemma {:induction false} NatToStringRoundTrip(n: nat)
    ensures DigitsValue(NatToString(n)) == n
    decreases n
  {
    var s := NatToString(n);
    if n >= 10 {
      NatToStringRoundTrip(n / 10);
      assert s[..|s| - 1] == NatToString(n / 10);
    }
  }

  /** `${i}` for an integer `i`. */
  function IntToString(i: int): (s: string)
    ensures |s| >= 1
    ensures forall k :: 0 <= k < |s| ==> IsDigit(s[k]) || s[k] == '-'
    ensures i >= 0 <==> s[0] != '-'
  {
    if i < 0 then "-" + NatToString(-i) else NatToString(i)
  }

  /** `sub` occurs in `s` starting at index `i`. */
  predicate OccursAt(s: string, sub: string, i: int) {
    0 <= i <= |s| - |sub| && s[i..i + |sub|] == sub
  }

  /** `s.includes(sub)`. */
  predicate Contains(s: string, sub: string) {
    exists i | 0 <= i <= |s| - |sub| :: OccursAt(s, sub, i)
  }

  /** A string that lacks the first character of `sub` does not contain `sub`. */
  lemma NotContainsWithoutFirstChar(s: string, sub: string)
    requires |sub| > 0 && sub[0] !in s
    ensures !Contains(s, sub)
  {
    forall i
      ensures !OccursAt(s, sub, i)
    {
      if 0 <= i <= |s| - |sub| {
        assert s[i..i + |sub|][0] == s[i];
      }
    }
  }

  /** A string contains every one of its pieces. */
  lemma ContainsPiece(a: string, sub: string, b: string)
    ensures Contains(a + sub + b, sub)
  {
    var s := a + sub + b;
    assert s[|a|..|a| + |sub|] == sub;
    assert OccursAt(s, sub, |a|);
  }
}

=== FILE: trade.dfy ===
/**
  The trade simulator of `web-app/src/app/portfolio/trade/page.tsx`
  (`handleTrade`): a BUY or SELL updates one holding, the four risk metrics
  move by a fixed amount per share traded and are clamped, and the first
  breached limit, in a fixed priority order, rejects the trade.
 */
module Trade {
  import opened Wrappers

  datatype Side = Buy | Sell

  /** A position; `value` is only present once a trade has touched it. */
  datatype Holding = Holding(shares: real, price: real, value: Option<real>)

  type Portfolio = map<string, Holding>

  datatype Metrics = Metrics(trackingError: real, sharpe: real, volatility: real, maxDrawdown: real)

  /** The page state `handleTrade` reads and writes. */
  datatype Desk = Desk(portfolio: Portfolio, metrics: Metrics)

  /** The four risk limits, in the order they are checked. */
  datatype Limit = TrackingErrorLimit | SharpeLimit | VolatilityLimit | DrawdownLimit

  datatype Status = Approved | Rejected

  datatype Reason =
    | TickerNotFound(ticker: string)
    | Breach(limit: Limit)
    | Executed(side: Side, shares: real, ticker: string, fund: string)

  datatype TradeResult = TradeResult(status: Status, reason: Reason)

  /** The metrics the page starts with. */
  const InitialMetrics: Metrics := Metrics(0.009, 0.65, 0.12, -0.08)

  function Min(a: real, b: real): real { if a <= b then a else b }
  function Max(a: real, b: real): real { if a >= b then a else b }

  /** The holding after trading `n` shares: SELL never goes below zero shares. */
  function UpdateHolding(h: Holding, side: Side, n: real): (r: Holding)
    ensures r.price == h.price
    ensures side == Buy ==> r.shares == h.shares + n
    ensures side == Sell ==> r.shares >= 0.0 && (r.shares == 0.0 || r.shares == h.shares - n)
    ensures side == Sell ==> r.shares >= h.shares - n && (h.shares - n >= 0.0 ==> r.shares == h.shares - n)
    ensures r.value.Some? && r.value.value == r.shares * r.price
  {
    var shares := if side == Buy then h.shares + n else Max(0.0, h.shares - n);
    Holding(shares, h.price, Some(shares * h.price))
  }

  /** The metrics after trading `n` shares, each moved by `n / 100` times its rate and clamped. */
  function UpdateMetrics(m: Metrics, n: real): (r: Metrics)
    ensures r.volatility <= 0.20 && r.sharpe >= 0.3 && r.trackingError <= 0.03 && r.maxDrawdown >= -0.20
    ensures n >= 0.0 ==>
      && r.volatility >= Min(0.20, m.volatility)
      && r.sharpe <= Max(0.3, m.sharpe)
      && r.trackingError >= Min(0.03, m.trackingError)
      && r.maxDrawdown <= Max(-0.20, m.maxDrawdown)
  {
    var impact := n / 100.0;
    Metrics(
      Min(0.03, m.trackingError + impact * 0.0003),
      Max(0.3, m.sharpe - impact * 0.0005),
      Min(0.20, m.volatility + impact * 0.001),
      Max(-0.20, m.maxDrawdown - impact * 0.0005))
  }

  /** Whether `m` breaches `limit`. */
  predicate Breaches(m: Metrics, limit: Limit) {
    match limit
    case TrackingErrorLimit => m.trackingError > 0.01
    case SharpeLimit => m.sharpe < 0.5
    case VolatilityLimit => m.volatility > 0.15
    case DrawdownLimit => m.maxDrawdown < -0.1
  }

  /** A limit's place in the checking order. */
  function Priority(limit: Limit): nat {
    match limit
    case TrackingErrorLimit => 0
    case SharpeLimit => 1
    case VolatilityLimit => 2
    case DrawdownLimit => 3
  }

  /** The limit the checks report: the first breached one, in checking order. */
  function FirstBreach(m: Metrics): (r: Option<Limit>)
    ensures r.None? <==> forall l: Limit :: !Breaches(m, l)
    ensures r.Some? ==> Breaches(m, r.value)
    ensures r.Some? ==> forall l: Limit :: Breaches(m, l) ==> Priority(r.value) <= Priority(l)
  {
    if m.trackingError > 0.01 then assert Breaches(m, TrackingErrorLimit); Some(TrackingErrorLimit)
    else if m.sharpe < 0.5 then assert Breaches(m, SharpeLimit); Some(SharpeLimit)
    else if m.volatility > 0.15 then assert Breaches(m, VolatilityLimit); Some(VolatilityLimit)
    else if m.maxDrawdown < -0.1 then assert Breaches(m, DrawdownLimit); Some(DrawdownLimit)
    else None
  }

  /**
    `handleTrade(side)` with the page's `tradeTicker`, `tradeShares` and
    selected fund. An unknown ticker is rejected with nothing changed; any
    other trade commits the new holdings and metrics, and is approved exactly
    when no limit is breached.
   */
  function HandleTrade(d: Desk, side: Side, ticker: string, n: real, fund: string): (r: (Desk, TradeResult))
    ensures ticker !in d.portfolio <==> r.1.reason == TickerNotFound(ticker)
    ensures ticker !in d.portfolio ==> r.0 == d && r.1.status == Rejected
    ensures ticker in d.portfolio ==>
      && r.0.portfolio.Keys == d.portfolio.Keys
      && (forall t :: t in d.portfolio && t != ticker ==> r.0.portfolio[t] == d.portfolio[t])
      && r.0.portfolio[ticker] == UpdateHolding(d.portfolio[ticker], side, n)
      && r.0.metrics == UpdateMetrics(d.metrics, n)
    ensures ticker in d.portfolio ==>
      (r.1.status == Approved <==> forall l: Limit :: !Breaches(r.0.metrics, l))
    ensures ticker in d.portfolio && r.1.status == Rejected ==>
      r.1.reason.Breach? && Breaches(r.0.metrics, r.1.reason.limit)
      && forall l: Limit :: Breaches(r.0.metrics, l) ==> Priority(r.1.reason.limit) <= Priority(l)
    ensures r.1.status == Approved ==> r.1.reason == Executed(side, n, ticker, fund)
  {
    if ticker !in d.portfolio then
      (d, TradeResult(Rejected, TickerNotFound(ticker)))
    else
      var d' := Desk(d.portfolio[ticker := UpdateHolding(d.portfolio[ticker], side, n)],
                     UpdateMetrics(d.metrics, n));
      match FirstBreach(d'.metrics)
      case Some(limit) => (d', TradeResult(Rejected, Breach(limit)))
      case None => (d', TradeResult(Approved, Executed(side, n, ticker, fund)))
  }

  /**
    The message the page shows for a result, given how it renders a number.
    The first characters tell the reasons apart: `You` for an execution,
    then `bought` or `sold` by side; `Ti` for an unknown ticker; `Tr`, `S`,
    `V` and `M` for the four breached limits.
   */
  function ReasonText(reason: Reason, formatNumber: real -> string): (text: string)
    ensures |text| >= 9
    ensures reason.Executed? <==> text[0] == 'Y'
    ensures reason.Executed? && reason.side == Buy ==> "You bought " <= text
    ensures reason.Executed? && reason.side == Sell ==> "You sold " <= text
    ensures reason.Executed? ==> text[4] == if reason.side == Buy then 'b' else 's'
    ensures reason.Executed? ==> var f := reason.fund;
      |f| <= |text| && text[|text| - |f|..] == f
    ensures reason.TickerNotFound? <==> "Ti" <= text
    ensures reason.TickerNotFound? ==>
      |text| == 30 + |reason.ticker| && text[7..7 + |reason.ticker|] == reason.ticker
    ensures reason == Breach(TrackingErrorLimit) <==> "Tr" <= text
    ensures reason == Breach(SharpeLimit) <==> text[0] == 'S'
    ensures reason == Breach(VolatilityLimit) <==> text[0] == 'V'
    ensures reason == Breach(DrawdownLimit) <==> text[0] == 'M'
  {
    match reason
    case TickerNotFound(ticker) =>
      var t := "Ticker " + ticker + " not found in portfolio";
      assert t[1] == 'i';
      t
    case Breach(TrackingErrorLimit) =>
      var t := "Tracking Error breach (limit ≤ 1%)";
      assert t[1] == 'r';
      t
    case Breach(SharpeLimit) => "Sharpe ratio too low (min ≥ 0.5)"
    case Breach(VolatilityLimit) => "Volatility too high (limit ≤ 15%)"
    case Breach(DrawdownLimit) => "Max Drawdown exceeded (limit ≥ -10%)"
    case Executed(side, n, ticker, fund) =>
      "You " + (if side == Buy then "bought" else "sold") + " " + formatNumber(n)
        + " shares of " + ticker + " for " + fund
  }

  /**
    The page's message determines the result's reason, except that an
    execution's message determines only its side: the share rendering, the
    ticker and the fund are not delimited in it.
   */
  lemma ReasonTextIdentifiesReason(r1: Reason, r2: Reason, formatNumber: real -> string)
    requires ReasonText(r1, formatNumber) == ReasonText(r2, formatNumber)
    ensures r1.Executed? <==> r2.Executed?
    ensures r1.Executed? ==> r1.side == r2.side
    ensures !r1.Executed? ==> r1 == r2
  {
  }

  /** The metric update depends on the number of shares only, not on the side or the ticker. */
  lemma MetricsIgnoreSideAndTicker(d: Desk, s1: Side, s2: Side, t1: string, t2: string, n: real, f: string)
    requires t1 in d.portfolio && t2 in d.portfolio
    ensures HandleTrade(d, s1, t1, n, f).0.metrics == HandleTrade(d, s2, t2, n, f).0.metrics
    ensures HandleTrade(d, s1, t1, n, f).1.status == HandleTrade(d, s2, t2, n, f).1.status
  {
  }

  /**
    From the page's initial metrics the tracking-error limit is always the
    first to break: a trade of a held ticker is approved exactly when
    `3 * n <= 1000`, and otherwise rejected for tracking error.
   */
  lemma InitialApprovalThreshold(portfolio: Portfolio, side: Side, ticker: string, n: real, fund: string)
    requires ticker in portfolio
    ensures var r := HandleTrade(Desk(portfolio, InitialMetrics), side, ticker, n, fund).1;
      (r.status == Approved <==> 3.0 * n <= 1000.0)
      && (r.status == Rejected ==> r.reason == Breach(TrackingErrorLimit))
  {
    var m := UpdateMetrics(InitialMetrics, n);
    if 3.0 * n <= 1000.0 {
      assert m.trackingError <= 0.01;
      assert m.sharpe >= 0.5;
      assert m.volatility <= 0.15;
      assert m.maxDrawdown >= -0.1;
    } else {
      assert m.trackingError > 0.01;
    }
  }

  /**
    BUY has no floor: buying a negative count `n` below minus the position
    leaves a short position, where selling `-n` shares stops at zero.
   */
  lemma NegativeBuyGoesShort(h: Holding, n: real)
    requires n < -h.shares
    ensures UpdateHolding(h, Buy, n).shares < 0.0
    ensures UpdateHolding(h, Buy, n).shares == h.shares + n
    ensures UpdateHolding(h, Sell, -n).shares == 0.0
  {
  }
}

=== FILE: wrappers.dfy ===
/** `Option` and `Result`, shared by every module of the model. */
module Wrappers {

  /** A value that may be absent: Python's `None`, JavaScript's `null`/`undefined`. */
  datatype Option<+T> = None | Some(value: T) {

    /** The wrapped value, or `default` when absent (JavaScript's `??`). */
    function GetOr(default: T): T {
      match this
      case Some(v) => v
      case None => default
    }
  }

  /** The outcome of an operation that may raise. */
  datatype Result<+R, +E> = Success(value: R) | Failure(error: E)
}
